=== FILE: README.md ===
# TARS-AI speech, memory and command logic in Dafny

This project models the pure logic inside the TARS-AI voice assistant and proves properties of it.
The audio devices, HTTP services, speech recognisers and vector database around that logic become
abstract inputs. The parts modelled are:

- **Text-to-speech** (`src/module_tts.py`):
  - `generate_tts_audio` as a decision table from option, credentials, URL and the character-voice
    flag to one backend call or one caught error;
  - `play_audio_stream` as a per-chunk pipeline: skip empty chunks, decode little-endian int16,
    optional peak normalisation, gain, clamping to int16, then write in order;
  - the two-step POST-then-GET flow of `alltalk_tts`;
  - the request and stream hand-off of `server_tts`.
- **Speech-to-text** (`src/module_stt.py`):
  - `amplify_audio` and the guard cases of `prepare_audio_data`;
  - the silence detector `_is_silence_detected`;
  - the 50-frame recording loops of the Vosk and the server transcription;
  - the reshaping of the server's JSON reply;
  - the `loopcheck` counter that gates the post-utterance callback.
- **Memory** (`src/module_memory.py`):
  - the documents each writer appends and `load_initial_memory`;
  - the context window of `get_related_memories`;
  - the `[-k:]` slice of `get_shortterm_memories_recent`;
  - the greedy token-budgeted selection of `get_shortterm_memories_tokenlimit` and its text.
- **Voice commands** (`src/module_voicecontrol.py`): the `MOVEMENT_COMMANDS` table and
  `process_movement_command`.
- **Piper speech** (`src/module_piper.py`): the `re.split(r'(?<=\.)\s', …)` sentence split, the
  strip-and-skip chunk loop, and the WAV parameters of `synthesize`.
- **Character card** (`src/module_character.py`): the field defaults of
  `load_character_attributes`, the `{{user}}`/`{{char}}`/`{{time}}` substitution, the card text,
  and the failure path.

There is one module per source file, plus three shared modules:

- `Common`: optional values, results, HTTP replies.
- `Text`: Python's `isspace`, `strip`, `lower`, `replace` and `join` on `seq<char>`.
- `Pcm`: int16 saturation, float-to-int truncation, and little-endian sample bytes.

NumPy float arithmetic is modelled with Dafny `real`, without float64 rounding. Casts truncate
toward zero and clipping is written out.

Four behaviours of the code shape the model:

- `generate_tts_audio` catches every error and only prints it; nothing reaches its caller.
  `TtsDispatch.Dispatch` therefore returns which backend is called, or which error is printed
  instead.
- In `play_audio_stream`, the chunks before an undecodable one have already been written when it
  raises, so a failed stream can still have played audio.
- The `piper` option does not produce a buffer: it runs the whole synthesise-and-play pipeline
  itself.
- Neither `generate_tts_audio` nor any backend checks for empty text; an empty string is sent on
  like any other.

The greeting's `{{time}}` substitution leaves no `{{time}}` behind because of which characters a
timestamp contains, not merely because it contains no braces. `Character.NoTimePlaceholderLeft`
proves this for any time string made of digits, `-`, `:` and space, which is what
`strftime("%Y-%m-%d %H:%M")` produces. `Character.BraceFreeTimeCanCompletePlaceholder` shows that a
brace-free time string alone is not enough: in `"{{{{time}}me}}"` the replacement `"ti"` joins the
text around it into a new `{{time}}`.

## Model

| member | source | states |
|---|---|---|
| Text.Strip | src/module_piper.py:68-69 | `strip()` returns a slice of its input with only whitespace cut at both ends, and the result neither starts nor ends with whitespace |
| Text.StripEmptyIffAllSpace | src/module_piper.py:68 | a string strips to the empty string exactly when every character is whitespace, which is when `if chunk.strip()` skips it |
| Text.Lower | src/module_voicecontrol.py:157 | `lower()` keeps the length and maps each upper-case ASCII letter to its lower-case letter, position by position |
| Text.LowerFixesLowerCase | src/module_voicecontrol.py:157 | `lower()` leaves a string without upper-case letters unchanged |
| Text.StripFixesTrimmed | src/module_voicecontrol.py:157 | `strip()` leaves a string unchanged when it neither starts nor ends with whitespace |
| Text.ReplaceAbsent | src/module_character.py:47-49 | `replace` leaves a string that does not contain the pattern unchanged |
| Text.ReplaceWhole | src/module_character.py:47-49 | replacing a pattern in the pattern alone yields the replacement |
| Text.MissingCharNotContained | src/module_character.py:47-49 | a string lacking any one character of the pattern cannot contain the pattern |
| Text.ReplacePrefixCopied | src/module_character.py:49 | as long as `replace`'s output shows only pattern characters, it is a copy of the input's prefix |
| Text.ReplaceRemovesAll | src/module_character.py:49 | after `replace` with a non-empty replacement that shares no character with the pattern, no occurrence of the pattern is left |
| Pcm.Clamp | src/module_tts.py:83 | `np.clip` to [-32768, 32767] lands in range and leaves in-range values alone |
| Pcm.Truncate | src/module_tts.py:83 | the int cast rounds toward zero: the result is within one of the input, on the zero side |
| Pcm.ToInt16 | src/module_tts.py:83 | clip-then-cast always gives an int16, saturates at either bound rather than wrapping, and truncates in-range values |
| Pcm.ToInt16OfInteger | src/module_tts.py:83 | a whole int16 value survives the float round trip unchanged |
| Pcm.Amplify | src/module_tts.py:83 | one sample times the gain, clipped and cast, is an int16 |
| Pcm.AmplifyAll | src/module_tts.py:83 | the gain step keeps the length, puts every sample in int16 range, and handles each sample independently |
| Pcm.SampleOf | src/module_tts.py:74 | two bytes read little-endian as two's complement give an int16 |
| Pcm.BytesOf | src/module_tts.py:74 | the two bytes written for a sample read back as that sample |
| Pcm.BytesOfSampleOf | src/module_tts.py:74 | two bytes read as a sample and written back are the same two bytes |
| Pcm.Decode | src/module_tts.py:74 | `np.frombuffer(..., 'int16')` succeeds exactly for an even number of bytes, giving half as many samples, each read from its own byte pair |
| Pcm.Encode | src/module_tts.py:74 | encoding gives two bytes per sample |
| Pcm.DecodeEncode | src/module_tts.py:74 | decoding the encoding of int16 samples gives back the samples |
| Pcm.EncodeDecode | src/module_tts.py:74 | an even-length buffer decodes and re-encodes to the same bytes |
| TtsRender.Peak | src/module_tts.py:78 | the peak bounds every sample's magnitude and is reached by some sample (0 for no samples) |
| TtsRender.Normalise | src/module_tts.py:77-80 | an all-zero chunk is left unscaled; otherwise every sample lies within ±32767 and some sample reaches ±32767 exactly |
| TtsRender.ScaledWithinPeak | src/module_tts.py:80 | a sample no louder than the peak scales into [-32767, 32767] |
| TtsRender.ScaledAtPeak | src/module_tts.py:80 | a sample at the peak scales to exactly ±32767, keeping its sign |
| TtsRender.Render | src/module_tts.py:74-83 | the chunk written keeps the sample count and every sample lies in [-32768, 32767]; without normalisation each sample is the exact product of its decoded value and the gain, clipped to int16 and truncated toward zero |
| TtsRender.GainClampsInsteadOfWrapping | src/module_tts.py:83 | [1000, -1000] at gain 2.0 becomes [2000, -2000], and at gain 50.0 becomes [32767, -32768] (clamped, not wrapped) |
| TtsRender.RenderUnitGainIsIdentity | src/module_tts.py:83 | with gain 1.0 and no normalisation, the written chunk equals the decoded chunk |
| TtsRender.NormalisedPeakIsFullScale | src/module_tts.py:77-83 | with normalisation and gain 1.0, a non-silent chunk comes out with peak exactly 32767 |
| TtsRender.PeakBounds | src/module_tts.py:78 | a sample at 32767 in magnitude, with none louder, makes the peak 32767 |
| TtsRender.ChunkEvent | src/module_tts.py:72-88 | a chunk is logged as empty exactly when it has no bytes; it fails exactly when it has an odd byte count; otherwise it is written with half as many int16 samples as bytes |
| TtsRender.PlayStream | src/module_tts.py:69-90 | at most one event per chunk, every written sample is int16, and a failure can only be the last event |
| TtsRender.PlayStreamIsChunkwise | src/module_tts.py:71-88 | a stream whose chunks all decode is handled chunk by chunk in stream order |
| TtsRender.PlayStreamStopsAtUndecodable | src/module_tts.py:74 | the first odd-length chunk ends the playback: the chunks before it are handled in order, it yields the failure, and nothing after it is written or logged |
| TtsRender.NonEmpty | src/module_tts.py:72 | the non-empty chunks are no more than the chunks, and each is non-empty |
| TtsRender.PlayStreamSkipsEmptyKeepsOrder | src/module_tts.py:71-88 | every empty chunk is logged and skipped, every other chunk is written once in stream order, and nothing fails, when all chunks decode |
| TtsRender.NumpyAbs16 | src/module_tts.py:78 | NumPy's int16 `abs` keeps the magnitude or flips the sign, stays in int16 range, and is negative for -32768 alone |
| TtsRender.PeakAsWritten | src/module_tts.py:78 | the source's peak bounds every sample's NumPy int16 absolute value, in which -32768 stays -32768, and some sample reaches it |
| TtsRender.RenderAsWritten | src/module_tts.py:74-83 | the chunk transform with the wrapped peak keeps the length and stays in int16 range |
| TtsRender.PeakWrapCounterexample | src/module_tts.py:78-80 | for [-32768, 1] the source's peak is 1 and the output is [-32768, 32767]; with the true peak it is [-32767, 0] |
| TtsDispatch.Dispatch | src/module_tts.py:232-272 | azure is chosen exactly when both credentials are truthy, whatever the character-voice flag; local/alltalk/piper/xttsv2 only with the flag on; xttsv2 needs a truthy URL; every other combination is the invalid-option error; the backend gets the text unchanged |
| TtsDispatch.CharVoiceOffSilencesAllButAzure | src/module_tts.py:251-269 | with the character voice off, every option except azure is the invalid-option error |
| TtsDispatch.AllTalk | src/module_tts.py:135-180 | the POST is always attempted, a malformed URL failing like any transport error; the GET is sent exactly when the POST succeeded with a truthy `output_file_url`, and to that URL; audio plays exactly when both replies succeed and `sf.read` can read the downloaded body, and it is that audio; a missing URL is reported exactly when the POST succeeded without one |
| TtsDispatch.ServerTts | src/module_tts.py:198-229 | one streaming GET to `/tts_stream`; a transport error or an error status plays nothing; otherwise at most one event per received chunk |
| TtsDispatch.DecodeAll | src/module_tts.py:74 | every even-length chunk decodes to int16 samples that re-encode to the chunk |
| TtsDispatch.RenderAllUnitGain | src/module_tts.py:83 | at `play_audio_stream`'s default gain and without normalisation, rendering is plain decoding |
| TtsDispatch.ServerTtsPlaysStreamUnchanged | src/module_tts.py:219-227 | a successful XTTS stream of whole samples reaches the device unchanged: the written samples are exactly the decoded non-empty chunks, in order |
| Stt.AmplifyAudio | src/module_stt.py:371-381 | amplification keeps the frame length and every sample lies in [-32768, 32767] |
| Stt.AmplifySampleNeverQuieter | src/module_stt.py:381 | with gain at least 1, a sample keeps its sign and does not get closer to zero |
| Stt.AmplifyNeverQuieter | src/module_stt.py:381 | with gain at least 1, no sample of a frame gets quieter or changes sign |
| Stt.SumSquares | src/module_stt.py:356-365 | the sum of squares of the clipped samples is zero exactly for an all-zero frame |
| Stt.PrepareAudioData | src/module_stt.py:349-366 | there is no level exactly for an empty or all-zero frame; otherwise the level is positive |
| Stt.Loud | src/module_stt.py:323 | a frame is loud only when it has a level, and that level is positive |
| Stt.LoudIffRmsAbove | src/module_stt.py:323 | for a non-negative threshold, comparing the mean square with the squared threshold gives the same answer as the source's comparison of the root mean square with the threshold |
| Stt.SilenceStep | src/module_stt.py:310-334 | a loud frame gives (not silent, speech detected, count 0); any other frame keeps the speech flag and adds one to the count; silence is reported exactly when a quiet frame takes the count past the maximum |
| Stt.SilenceStepAsWritten | src/module_stt.py:314-323 | the detector as written raises exactly when the frame has no level, and agrees with the intended detector otherwise |
| Stt.MutedFrameRaisesAsWritten | src/module_stt.py:314-323 | an all-zero frame raises in the detector as written, at any gain; the intended detector counts it as one more quiet frame |
| Stt.QuietRun | src/module_stt.py:328-329 | the trailing run of quiet frames is no longer than the frames seen |
| Stt.StateAtCounts | src/module_stt.py:323-334 | after any number of frames, the silent count is the length of the trailing quiet run and the speech flag says whether any frame was loud |
| Stt.QuietRunExceeds | src/module_stt.py:328-330 | the trailing quiet run is longer than `m` exactly when the last `m + 1` frames are all quiet |
| Stt.SilenceAtIffQuietRun | src/module_stt.py:310-334 | silence is reported on frame `k` exactly when frames `k - max` to `k` are all quiet: on the (max + 1)-th consecutive quiet frame, whether or not speech came before |
| Stt.VoskLoop | src/module_stt.py:233-250 | at most 50 frames are read; before the last frame read, nothing was silent or accepted; a transcription comes from an accepted, non-silent last frame; silence ends the loop on a silent frame; with no transcription, all of the first min(50, n) frames were read |
| Stt.TranscribeWithVosk | src/module_stt.py:217-250 | the same guarantees as `VoskLoop`, stated over the amplified frames the microphone delivers |
| Stt.ServerLoop | src/module_stt.py:269-278 | at most 50 frames are read, no silence before the last frame read, and an early stop happens only on a silent frame |
| Stt.RecordForServer | src/module_stt.py:269-278 | the recording is the amplified prefix of the frames, at most 50 long, including the frame the silence check stopped on; an early stop happens only on silence |
| Stt.FormatTranscription | src/module_stt.py:290-307 | a result exists exactly for status 200 with a non-empty transcription; its text is the first segment's text stripped, and it has one word per segment with confidence 1.0 and missing fields defaulted |
| Stt.TranscribeWithServer | src/module_stt.py:252-307 | the upload is a mono 16-bit 16 kHz WAV of amplified frames from the start of the stream (at most 50), and the result is the reshaped reply |
| Stt.PostUtterance | src/module_stt.py:202-212 | with a callback and a result, `loopcheck` goes up by one and the callback runs exactly while it has not passed 10; otherwise nothing changes |
| Stt.CallbackRunsAtMostTenTimes | src/module_stt.py:202-212 | over any series of utterances from a count of at most 10, the callback runs min(transcriptions, 10 - count) times: `loopcheck` is never reset |
| Stt.CallbackRunsAfterLimit | src/module_stt.py:206-210 | once the count has passed 10, the callback never runs again |
| Memory.WriteLongterm | src/module_memory.py:53-68 | exactly one document is appended, with timestamp, user input and bot response, and the earlier documents are unchanged |
| Memory.WriteToolUsed | src/module_memory.py:178-191 | exactly one document is appended, with timestamp and the tool as the bot response but no user input; nothing else changes |
| Memory.LoadInitialMemory | src/module_memory.py:193-211 | no file changes nothing; otherwise one exchange document is appended per entry, in order, with missing `userinput`/`botresponse` as "" |
| Memory.Inject | src/module_memory.py:205-209 | the loop appends one exchange document per entry, in order, after the existing documents |
| Memory.LoadIgnoresTime | src/module_memory.py:206 | the entries' `time` field makes no difference to what is stored |
| Memory.FirstIndex | src/module_memory.py:89 | `next(...)` finds the first document equal to the match, or nothing exactly when there is none |
| Memory.RelatedMemories | src/module_memory.py:70-108 | a raising query gives the error text; no hits gives "no memories"; a hit not in the list gives "could not locate"; otherwise the answer is the contiguous window from max(i-1, 0) to min(i+2, n) around the first match, 1 to 3 documents long and containing the match |
| Memory.LongTermMemory | src/module_memory.py:110-128 | disabled long-term memory gives its warning, enabled gives the related memories, and the "No relevant memories found." fallback is never reached |
| Memory.SliceStart | src/module_memory.py:142 | Python's slice start stays within the list |
| Memory.Recent | src/module_memory.py:130-142 | `[-k:]` gives the last min(k, n) documents in order for k > 0, all of them for k = 0, and drops the first min(-k, n) for k < 0 |
| Memory.RecentGrowsAtTheFront | src/module_memory.py:142 | asking for more recent entries only adds older ones in front |
| Memory.ExchangeOf | src/module_memory.py:158-161 | an entry taken by the selection has a non-empty user input and bot response |
| Memory.Candidates | src/module_memory.py:158-162 | the entries the selection considers all have non-empty user input and bot response |
| Memory.SelectIsPrefix | src/module_memory.py:157-171 | the selection is a prefix of the complete entries, newest first |
| Memory.SelectFits | src/module_memory.py:167-171 | the selected entries' tokens, added to those already used, do not exceed the limit |
| Memory.SelectStopsAtOverflow | src/module_memory.py:167-168 | when the selection stops short, the next complete entry would overflow the limit |
| Memory.SelectIsLongestFittingPrefix | src/module_memory.py:157-171 | the selection is the longest newest-first run of complete entries that fits; no later, smaller entry is picked up |
| Memory.JoinEmptyIffNoParts | src/module_memory.py:173-175 | joining non-empty parts gives "" exactly when there are no parts |
| Memory.Select | src/module_memory.py:157-171 | the newest exchange shown, if any, has non-empty input and response |
| Memory.FormatMemories | src/module_memory.py:173-175 | the formatted memories are empty exactly when nothing was selected, and otherwise start with the oldest selected exchange |
| Memory.SelectNewest | src/module_memory.py:157-171 | the loop with its running total computes the newest-first selection |
| Memory.ShortTermByTokens | src/module_memory.py:144-176 | the selection, reversed, is the longest newest-first run of complete entries whose tokens fit the limit, and the text is those exchanges in chronological order |
| Memory.SelectStep | src/module_memory.py:158-171 | one step of the scan skips an incomplete entry, stops at an overflowing one, and otherwise takes the entry and adds its tokens |
| Memory.CostAppend | src/module_memory.py:171 | the running total grows by the new entry's token count |
| Memory.ReverseReverse | src/module_memory.py:173-174 | reversing twice restores the order |
| Memory.GreetingDocument | src/module_memory.py:50 | the greeting document is never a complete exchange and carries the text "<char>: <greeting>" |
| Memory.SelectSkipsIncompleteOldest | src/module_memory.py:161-162 | an entry without input or response at the old end of the scan does not change the selection |
| Memory.GreetingNeverSelected | src/module_memory.py:50 | the greeting a fresh database starts with is never shown, whatever is written after it |
| Memory.ToolUseNeverSelected | src/module_memory.py:158-162 | a tool-use record never changes the selection |
| Memory.WrittenExchangeIsShown | src/module_memory.py:61-68 | a freshly written exchange whose tokens fit is the newest one selected |
| VoiceControl.AtMostOneEntryMatches | src/module_voicecontrol.py:51-144 | keys and aliases are distinct across entries, so no command matches two entries |
| VoiceControl.PhrasesAreNormalised | src/module_voicecontrol.py:51-157 | every key and alias is unchanged by `lower().strip()` |
| VoiceControl.FirstMatch | src/module_voicecontrol.py:160-161 | the search finds an entry the command matches, and finds none exactly when no entry matches |
| VoiceControl.Run | src/module_voicecontrol.py:162-166 | the entry's routine is the one run; the reply succeeds exactly when it completes, with the entry's response, and otherwise carries "Error executing movement: " and the exception's message |
| VoiceControl.ProcessMovementCommand | src/module_voicecontrol.py:146-168 | the entry whose key or alias equals the lower-cased, stripped command runs once and its reply is returned; "Command not recognized." exactly when nothing matches; success exactly when a routine ran and did not raise |
| VoiceControl.EveryPhraseSelectsItsEntry | src/module_voicecontrol.py:51-168 | saying any key or alias runs that entry's routine |
| Piper.FirstBoundary | src/module_piper.py:64 | the first whitespace after a `.` at or after a position, or none when there is none |
| Piper.Split | src/module_piper.py:64 | there is at least one piece, every piece but the last ends with `.`, and no piece holds a further split point |
| Piper.Separators | src/module_piper.py:64 | every dropped separator is a whitespace character |
| Piper.SplitRoundTrip | src/module_piper.py:64 | there is one more piece than separators, and the pieces joined with the separators rebuild the text |
| Piper.SplitWithoutBoundary | src/module_piper.py:64 | text with no whitespace after a `.` stays in one piece |
| Piper.Spoken | src/module_piper.py:68-69 | a piece contributes nothing exactly when it is blank, and otherwise its stripped, non-empty text |
| Piper.Chunks | src/module_piper.py:67-69 | no more chunks than pieces, each non-empty and trimmed |
| Piper.ChunksKeepNonBlank | src/module_piper.py:67-69 | the number of chunks is the number of pieces minus the blank ones |
| Piper.SynthesisFormat | src/module_piper.py:38-41 | each buffer is mono, 16-bit, at the voice's sample rate |
| Piper.PipelineAlternates | src/module_piper.py:67-70 | step 2k synthesises chunk k and step 2k+1 plays it, so chunk k+1 is synthesised only after chunk k has played |
| Piper.PipelineAppend | src/module_piper.py:67-70 | the steps for two runs of chunks are the steps of each, one after the other |
| Piper.SpokenSteps | src/module_piper.py:68-70 | one piece yields no steps when it strips to nothing, and otherwise the synthesis and then the playback of its stripped text |
| Piper.SpeakPieces | src/module_piper.py:67-70 | each piece gives at most two steps, and no step names an empty chunk |
| Piper.SpeakPiecesIsPipeline | src/module_piper.py:67-70 | the chunk loop speaks exactly the non-blank pieces, stripped, in order, each synthesised then played |
| Piper.TextToSpeech | src/module_piper.py:58-70 | the trace alternates synthesis and playback of the non-blank stripped sentences of the text, in order, each as a mono 16-bit buffer |
| Character.FormatGreeting | src/module_character.py:46-49 | an empty greeting is left empty |
| Character.NoTimePlaceholderLeft | src/module_character.py:49 | with a timestamp of digits, `-`, `:` and space, no `{{time}}` is left in the greeting |
| Character.BraceFreeTimeCanCompletePlaceholder | src/module_character.py:49 | a brace-free time string alone does not suffice: "ti" in "{{{{time}}me}}" leaves a `{{time}}` |
| Character.OnlyTimePlaceholder | src/module_character.py:47-49 | a greeting with neither `u` nor `c` sees only the `{{time}}` substitution |
| Character.JoinedPlaceholder | src/module_character.py:49 | replacing `{{time}}` by "ti" in "{{{{time}}me}}" gives "{{time}}" |
| Character.PlainGreetingUnchanged | src/module_character.py:46-49 | a greeting without placeholders comes out unchanged |
| Character.LaterPlaceholderKept | src/module_character.py:47-48 | a character name containing `{{user}}` keeps it, because `{{user}}` was replaced first |
| Character.EarlierPlaceholderFilled | src/module_character.py:47-48 | a user name containing `{{char}}` has it replaced by the character's name |
| Character.CardString | src/module_character.py:51-53 | the card is the three fields plus 51 characters: the personality label, the personality, the scenario label, the scenario, the dialogue label, the dialogue and a final newline, each at its own offset whatever the fields contain |
| Character.ThreeLabelledFields | src/module_character.py:51-53 | in three labelled fields written one after another, every label and field sits at the offset the lengths before it give |
| Character.AfterLabel | src/module_character.py:51-53 | the text after a label is what the string holds once the label is taken off its front |
| Character.AfterLabelOf | src/module_character.py:51-53 | a label followed by text gives that text back |
| Character.FirstNewline | src/module_character.py:51-53 | the first newline of a string, with none before it, or none at all |
| Character.FirstNewlineAt | src/module_character.py:51-53 | a single line followed by a newline has its first newline right after the line |
| Character.Line | src/module_character.py:51-53 | a string cut before its first newline rebuilds the string, and the line has no newline |
| Character.LineOf | src/module_character.py:51-53 | a single line followed by a newline is cut at that newline |
| Character.DialogRoundTrip | src/module_character.py:53 | the example dialogue is read back from its label and final newline |
| Character.ScenarioRoundTrip | src/module_character.py:52-53 | the scenario line and the dialogue are read back after the scenario label |
| Character.CardRoundTrip | src/module_character.py:51-53 | the card is exactly the labelled personality, scenario and dialogue: reading it back gives the three fields when the first two are single lines |
| Character.LoadCharacterAttributes | src/module_character.py:31-59 | a missing or unparsable file leaves every attribute `None`; otherwise each field is its value or "", the greeting has its placeholders filled in, and the card holds the three fields under their labels |

## Left out

- Audio devices and playback are not modelled: `sd.OutputStream`, `sd.play`, `sf.read`, `aplay` and the ALSA error handler. Writes and plays are recorded as events or steps.
- Network calls and SDKs are inputs: every `requests` call is a `Reply` value, and `azure_tts` and `update_tts_settings` are not modelled beyond the dispatch to them.
- `local_tts` runs a shell pipeline. It appears only as the `LocalCall` the dispatcher makes.
- The speech recognisers, wake-word detection, the background-noise threshold with its dB conversion, and the beep are not modelled. The recogniser's accept decisions are an input of `Stt.VoskLoop`.
- HyperDB similarity search, pickling and `token_count` are inputs: a query result, and a function from string to token count.
- The `str(past)` rendering of the related memories and the timestamped warning texts are represented by their variants, not by their characters.
- `init_dynamic_memory` is not modelled beyond the greeting document it writes.
- Threads in the STT manager, `asyncio` in the Piper pipeline and the thread orchestration of `app.py` are treated as sequential.
- `Stt.PrepareAudioData` returns the mean square instead of its square root, and the detector compares it with the squared threshold. The two comparisons agree for a non-negative threshold; `sqrt` is not modelled.
- NaN and infinite samples are not modelled (`nan_to_num` is a no-op on int16 frames).
- `Text.Lower` lowers ASCII letters only. Every table phrase is ASCII, but Python's `lower()` also maps non-ASCII letters onto them: U+212A KELVIN SIGN lowers to `k`, so "wal\u212A forward" runs the walk-forward entry in the source, while `VoiceControl.ProcessMovementCommand` replies "Command not recognized.".
- `Text.IsSpace` follows Python's `str.isspace` for code points up to U+3000. Surrogate code points are outside Dafny's `char`.
- Card fields that are JSON values other than strings or absent keys are not modelled: the `Character.CardData` fields are optional strings.
- The `audio_buffer` empty check in `_transcribe_with_server` is not modelled. The WAV header is always written, so the check never fires.
- `Stt.TranscribeWithVosk` and `Stt.RecordForServer` take the level of every frame the microphone would deliver. The source computes a level only for the frames it reads; the model uses only those.
- Stt.TranscribeWithServer: states that the upload is the amplified first `n` frames for some `n` of at most 50, without naming `n`. `Stt.RecordForServer` states which frames those are.
- `Stt.VoskLoop` uses the corrected detector `Stt.SilenceStep`, in which a frame without a level counts as quiet. In the source, an all-zero frame makes `rms > self.silence_threshold` raise `TypeError` (src/module_stt.py:323). The error leaves the loop and is caught at src/module_stt.py:214, so no transcription is returned. See Findings.
- `Stt.TranscribeWithVosk` inherits that from `Stt.VoskLoop`: for an all-zero frame among those read, the source returns no transcription and runs no callback.
- `Stt.TranscribeWithVosk` does not model the `utterance_callback(result)` call made before the result is returned (src/module_stt.py:245-246). If that callback raises, the error reaches the handler at src/module_stt.py:214, so `loopcheck` does not advance and the post-utterance callback does not run; the model returns the transcription regardless.
- `Stt.ServerLoop` uses the corrected detector as well. In the source, the `TypeError` from an all-zero frame is not a `RequestException`, so it passes the handler at src/module_stt.py:305 and is caught at src/module_stt.py:214.
- `Stt.RecordForServer` inherits that from `Stt.ServerLoop`: in the source, the recording is abandoned at the first all-zero frame, and nothing is uploaded.
- `Stt.TranscribeWithServer` inherits that as well: in the source, an all-zero frame among those read means no upload, no result and no callback.
- `TtsRender.Normalise` divides by the true peak. The source's `np.abs` on int16 data leaves -32768 negative, so the source's peak ignores such a sample (see Findings). `TtsRender.RenderAsWritten` models the source's peak.
- `TtsRender.Render` inherits the true peak from `TtsRender.Normalise` when normalising. Without normalisation, which is how `server_tts` calls the player, it uses the same clip-and-truncate as the source, but on the exact product.
- `TtsRender.Render` does not model float64 rounding of `audio_data * gain` (src/module_tts.py:83) or of `/ max_value * 32767` (src/module_tts.py:80). A product that float64 rounds across an integer can truncate one step differently: with the gain `0.3333333333333333` (6004799503160661/2^54), sample 3 gives 1 in the source and 0 in the model. At gain 1.0, the default of `play_audio_stream` and the only gain the program passes, the product is exact and the two agree.
- `Pcm.Amplify` multiplies exactly; it shares the float64 rounding gap of `TtsRender.Render` and `Stt.AmplifyAudio`.
- `Stt.AmplifyAudio` does not model float64 rounding of `data * self.amp_gain` (src/module_stt.py:381). At the default gain 4.0, the only one the program uses, the product of an int16 sample is exact, so the model and the source agree.
- `Stt.FormatTranscription` models reply values only as strings, numbers or missing keys. In the source, a `null` or other non-string `text` in the first segment, a first entry that is not an object, or a truthy `transcription` that is not a list makes `transcription[0].get("text", "").strip()` (src/module_stt.py:293) raise. That error is not a `RequestException`, so it passes the handler at src/module_stt.py:305 and reaches src/module_stt.py:214, and no result is returned. A later entry that is not an object raises the same way at src/module_stt.py:297. A `null` `start` or `end` is kept as `None` in the source, where the model has 0.0.
- `TtsRender.PlayStream` renders each chunk with `TtsRender.Render`, so a normalised chunk holding -32768 is scaled as intended rather than as written.
- `Stt.TranscribeWithServer` does not model the `utterance_callback(json.dumps(...))` call made before the result is returned (src/module_stt.py:301-302). An error it raises is not a `RequestException`, so it passes the handler at src/module_stt.py:305 and reaches src/module_stt.py:214: `loopcheck` does not advance and the post-utterance callback does not run, while the model returns the result.
- `Piper.TextToSpeech` is a recursive function over the pieces rather than a loop. `Piper.SpeakPiecesIsPipeline` relates it to the chunk list.
- `Memory.LoadInitialMemory` takes the file already parsed into a list of entries, so it does not model the two raising paths. `json.load` raises on a malformed file (src/module_memory.py:202), and nothing is written. An entry that is not an object raises on `memory.get` (src/module_memory.py:205-207) after the entries before it have already been written, and the file is not renamed. The model promises nothing about either case.
- `Memory.LoadInitialMemory` does not model the rename of the file to `.loaded` after loading (src/module_memory.py:211). The file system is not modelled, so the model does not say that a second start finds no file.
- The clock is an input: the time strings written by the memory writers and the greeting's `{{time}}`.
- `humor`, `mood` and `voice_only` of the character manager are not used by the modelled code.
- The other modules of the repository are not part of this model: vision, web search, Discord and the application wiring.

## Findings

| source | as written | input that shows it | evidently intended | confidence | as-written member | corrected member |
|---|---|---|---|---|---|---|
| src/module_tts.py:78-80 | `np.max(np.abs(audio_data))` on int16 data: `abs(-32768)` wraps to -32768, so a -32768 sample is ignored by the peak | the chunk [-32768, 1] with `normalize=True`: the peak is 1 and the output is [-32768, 32767] | scale by the true peak, so the loudest sample reaches full scale and the others keep their proportions | not executed | TtsRender.PeakWrapCounterexample | TtsRender.NormalisedPeakIsFullScale |
| src/module_stt.py:314-323 | `prepare_audio_data` returns `None` for an all-zero frame, and `rms > self.silence_threshold` then raises `TypeError` | a muted microphone delivers a frame of zeros: the detector raises, and the recording loop is abandoned | count a frame without a level as one more quiet frame | not executed | Stt.MutedFrameRaisesAsWritten | Stt.SilenceStep |

=== FILE: character.dfy ===
/**
 * `CharacterManager.load_character_attributes`: the fields of the character card with their
 * defaults, the greeting with its `{{user}}`, `{{char}}` and `{{time}}` placeholders filled in,
 * and the card text handed to the prompt. Reading and parsing the file is an input: the file is
 * missing, cannot be read as a JSON object, or gives the card's fields. The clock is an input too.
 */
module Character {
  import opened Common
  import opened Text

  /** The fields of a card file as `json.load` returns them; a key the file lacks is `None`. */
  datatype CardData = CardData(
    charName: Option<string>,
    personality: Option<string>,
    worldScenario: Option<string>,
    charGreeting: Option<string>,
    exampleDialogue: Option<string>)

  /** Opening and parsing `character_card_path`. */
  datatype CardFile = NotFound | Malformed | Loaded(data: CardData)

  /** The attributes the manager holds after loading. */
  datatype Character = Character(
    card: Option<string>,
    charName: Option<string>,
    personality: Option<string>,
    worldScenario: Option<string>,
    charGreeting: Option<string>,
    exampleDialogue: Option<string>)

  /** The attributes as `__init__` sets them before loading. */
  const Unloaded: Character := Character(None, None, None, None, None, None)

  const UserPlaceholder: string := "{{user}}"
  const CharPlaceholder: string := "{{char}}"
  const TimePlaceholder: string := "{{time}}"

  // ---- the greeting -------------------------------------------------------------------------

  /** The greeting with its placeholders filled in, one `replace` after the other: `{{user}}`
      first, then `{{char}}`, then `{{time}}`. An empty greeting is left as it is. */
  function FormatGreeting(greeting: string, userName: string, charName: string, time: string): (r: string)
    ensures greeting == "" ==> r == ""
  {
    if greeting == "" then ""
    else Replace(Replace(Replace(greeting, UserPlaceholder, userName), CharPlaceholder, charName), TimePlaceholder, time)
  }

  /** What `strftime("%Y-%m-%d %H:%M")` is made of: digits, dashes, one space and a colon. */
  predicate TimestampChars(t: string) {
    forall k :: 0 <= k < |t| ==> t[k] in "0123456789-: "
  }

  /** With a timestamp as the clock gives it, no `{{time}}` is left in the greeting: the
      timestamp shares no character with the placeholder, so it can neither contain one nor
      complete one with the text around it. */
  lemma NoTimePlaceholderLeft(greeting: string, userName: string, charName: string, time: string)
    requires greeting != "" && |time| > 0 && TimestampChars(time)
    ensures !Contains(FormatGreeting(greeting, userName, charName, time), TimePlaceholder)
  {
    forall k | 0 <= k < |time| ensures time[k] !in TimePlaceholder {
      assert time[k] in "0123456789-: ";
    }
    ReplaceRemovesAll(Replace(Replace(greeting, UserPlaceholder, userName), CharPlaceholder, charName), TimePlaceholder, time);
  }

  /** A time string with no braces is not enough: here the replacement joins the text around it
      into a new `{{time}}`. */
  lemma BraceFreeTimeCanCompletePlaceholder()
    ensures Contains(FormatGreeting("{{{{time}}me}}", "", "", "ti"), TimePlaceholder)
  {
    var g := "{{{{time}}me}}";
    assert 'u' !in g && 'c' !in g;
    OnlyTimePlaceholder(g, "", "", "ti");
    var r := JoinedPlaceholder();
    assert OccursAt(r, TimePlaceholder, 0);
  }

  /** A greeting with neither a `u` nor a `c` sees only the `{{time}}` substitution. */
  lemma OnlyTimePlaceholder(greeting: string, userName: string, charName: string, time: string)
    requires greeting != "" && 'u' !in greeting && 'c' !in greeting
    ensures FormatGreeting(greeting, userName, charName, time) == Replace(greeting, TimePlaceholder, time)
  {
    MissingCharNotContained(greeting, UserPlaceholder, 'u');
    ReplaceAbsent(greeting, UserPlaceholder, userName);
    MissingCharNotContained(greeting, CharPlaceholder, 'c');
    ReplaceAbsent(greeting, CharPlaceholder, charName);
  }

  lemma JoinedPlaceholder() returns (r: string)
    ensures r == Replace("{{{{time}}me}}", TimePlaceholder, "ti") && r == "{{time}}"
  {
    var g := "{{{{time}}me}}";
    assert g[..8][2] != TimePlaceholder[2];
    var g1 := g[1..];
    assert g1[..8][2] != TimePlaceholder[2];
    var g2 := g1[1..];
    assert g2[..8] == TimePlaceholder;
    var g3 := g2[8..];
    assert |g3| < 8;
    r := Replace(g, TimePlaceholder, "ti");
    assert r == [g[0]] + ([g1[0]] + ("ti" + g3));
  }

  /** A greeting without placeholders comes out unchanged. */
  lemma PlainGreetingUnchanged(greeting: string, userName: string, charName: string, time: string)
    requires !Contains(greeting, UserPlaceholder) && !Contains(greeting, CharPlaceholder) && !Contains(greeting, TimePlaceholder)
    ensures FormatGreeting(greeting, userName, charName, time) == greeting
  {
    if greeting != "" {
      ReplaceAbsent(greeting, UserPlaceholder, userName);
      ReplaceAbsent(greeting, CharPlaceholder, charName);
      ReplaceAbsent(greeting, TimePlaceholder, time);
    }
  }

  /** A placeholder brought in by a later substitution is left in place: a character name
      containing `{{user}}` keeps it, because `{{user}}` was replaced before the name went in. */
  lemma LaterPlaceholderKept(userName: string, charName: string, time: string)
    requires !Contains(charName, TimePlaceholder)
    ensures FormatGreeting(CharPlaceholder, userName, charName, time) == charName
  {
    MissingCharNotContained(CharPlaceholder, UserPlaceholder, 'u');
    ReplaceAbsent(CharPlaceholder, UserPlaceholder, userName);
    ReplaceWhole(CharPlaceholder, charName);
    ReplaceAbsent(charName, TimePlaceholder, time);
  }

  /** A placeholder brought in by an earlier substitution is filled in: a user name containing
      `{{char}}` has it replaced by the character's name. */
  lemma EarlierPlaceholderFilled(charName: string, time: string)
    requires !Contains(charName, TimePlaceholder)
    ensures FormatGreeting(UserPlaceholder, CharPlaceholder, charName, time) == charName
  {
    assert Replace(UserPlaceholder, UserPlaceholder, CharPlaceholder) == CharPlaceholder + Replace("", UserPlaceholder, CharPlaceholder);
    ReplaceWhole(CharPlaceholder, charName);
    ReplaceAbsent(charName, TimePlaceholder, time);
  }

  // ---- the card text --------------------------------------------------------------------------

  const PersonalityLabel: string := "\nPersonality: "
  const ScenarioLabel: string := "\n\nWorld Scenario: "
  const DialogLabel: string := "\n\nExample Dialog:\n"

  /** `character_card`: the personality, the world scenario and the example dialogue, each after
      its label, ending with a newline. */
  function CardString(personality: string, worldScenario: string, exampleDialogue: string): (r: string)
    ensures |r| == |personality| + |worldScenario| + |exampleDialogue| + 51
    // each label followed by its field, in order, whatever the fields hold
    ensures var a := |PersonalityLabel| + |personality|;
      var b := a + |ScenarioLabel| + |worldScenario|;
      var c := b + |DialogLabel| + |exampleDialogue|;
      && r[..|PersonalityLabel|] == PersonalityLabel && r[|PersonalityLabel|..a] == personality
      && r[a..a + |ScenarioLabel|] == ScenarioLabel && r[a + |ScenarioLabel|..b] == worldScenario
      && r[b..b + |DialogLabel|] == DialogLabel && r[b + |DialogLabel|..c] == exampleDialogue
      && r[c..] == "\n"
  {
    assert |PersonalityLabel| + |ScenarioLabel| + |DialogLabel| == 50;
    ThreeLabelledFields(PersonalityLabel, personality, ScenarioLabel, worldScenario, DialogLabel, exampleDialogue, "\n");
    PersonalityLabel + (personality + (ScenarioLabel + (worldScenario + (DialogLabel + (exampleDialogue + "\n")))))
  }

  /** Three labelled fields and an ending, one after the other: each part sits where it was put. */
  lemma ThreeLabelledFields(l1: string, f1: string, l2: string, f2: string, l3: string, f3: string, end: string)
    ensures var r := l1 + (f1 + (l2 + (f2 + (l3 + (f3 + end)))));
      var a := |l1| + |f1|;
      var b := a + |l2| + |f2|;
      var c := b + |l3| + |f3|;
      && r[..|l1|] == l1 && r[|l1|..a] == f1
      && r[a..a + |l2|] == l2 && r[a + |l2|..b] == f2
      && r[b..b + |l3|] == l3 && r[b + |l3|..c] == f3
      && r[c..] == end
  {
    var r4 := l3 + (f3 + end);
    var r2 := l2 + (f2 + r4);
    var r := l1 + (f1 + r2);
    var a := |l1| + |f1|;
    LabelledField(l1, f1, r2);
    FieldAt(r, a, l2, f2, r4);
    FieldAt(r, a + |l2| + |f2|, l3, f3, end);
  }

  /** A labelled field found at offset `a`: the label, the field and the rest each sit at their
      own offsets. */
  lemma FieldAt(x: string, a: nat, tag: string, field: string, rest: string)
    requires a <= |x| && x[a..] == tag + (field + rest)
    ensures x[a..a + |tag|] == tag && x[a + |tag|..a + |tag| + |field|] == field
    ensures x[a + |tag| + |field|..] == rest
  {
    LabelledField(tag, field, rest);
    SliceShift(x, a, 0, |tag|);
    SliceShift(x, a, |tag|, |tag| + |field|);
  }

  /** A label followed by a field and the rest: each part sits where it was put. */
  lemma LabelledField(tag: string, field: string, rest: string)
    ensures var x := tag + (field + rest);
      x[..|tag|] == tag && x[|tag|..|tag| + |field|] == field && x[|tag| + |field|..] == rest
  {
    var x := tag + (field + rest);
    assert x[|tag|..] == field + rest;
    assert x[|tag|..][..|field|] == field;
  }

  /** A slice of the suffix of `x` from `a` on is the slice of `x` shifted by `a`. */
  lemma SliceShift(x: string, a: nat, i: nat, j: nat)
    requires i <= j && a + j <= |x|
    ensures x[a + i..a + j] == x[a..][i..j]
    ensures x[a + j..] == x[a..][j..]
  {
  }

  /** What follows `tag` at the start of `s`, if `s` starts with it. */
  function AfterLabel(s: string, tag: string): (r: Option<string>)
    ensures r.Some? ==> s == tag + r.value
    ensures r.None? ==> |s| < |tag| || s[..|tag|] != tag
  {
    if |s| >= |tag| && s[..|tag|] == tag then Some(s[|tag|..]) else None
  }

  lemma AfterLabelOf(tag: string, x: string)
    ensures AfterLabel(tag + x, tag) == Some(x)
  {
    assert (tag + x)[..|tag|] == tag;
  }

  /** The index of the first newline in `s`. */
  function FirstNewline(s: string): (r: Option<nat>)
    ensures r.Some? ==> r.value < |s| && s[r.value] == '\n' && '\n' !in s[..r.value]
    ensures r.None? ==> '\n' !in s
  {
    if |s| == 0 then None
    else if s[0] == '\n' then Some(0)
    else
      var r := FirstNewline(s[1..]);
      if r.None? then None
      else
        assert s[..r.value + 1] == [s[0]] + s[1..][..r.value];
        Some(r.value + 1)
  }

  lemma {:induction false} FirstNewlineAt(x: string, y: string)
    requires '\n' !in x && |y| > 0 && y[0] == '\n'
    ensures FirstNewline(x + y) == Some(|x|)
    decreases |x|
  {
    if |x| > 0 {
      assert (x + y)[1..] == x[1..] + y;
      assert '\n' !in x[1..] by {
        forall k | 0 <= k < |x| - 1 ensures x[1..][k] != '\n' { assert x[1..][k] == x[k + 1]; }
      }
      FirstNewlineAt(x[1..], y);
    }
  }

  /** `s` cut before its first newline: the line, and the rest starting with the newline. */
  function Line(s: string): (r: Option<(string, string)>)
    ensures r.Some? ==> s == r.value.0 + r.value.1 && '\n' !in r.value.0
    ensures r.None? <==> '\n' !in s
  {
    match FirstNewline(s)
    case None => None
    case Some(i) =>
      assert s == s[..i] + s[i..];
      Some((s[..i], s[i..]))
  }

  lemma LineOf(x: string, y: string)
    requires '\n' !in x && |y| > 0 && y[0] == '\n'
    ensures Line(x + y) == Some((x, y))
  {
    FirstNewlineAt(x, y);
    assert (x + y)[..|x|] == x && (x + y)[|x|..] == y;
  }

  function Fields(personality: string, worldScenario: string, exampleDialogue: string): seq<string> {
    [personality, worldScenario, exampleDialogue]
  }

  /** Reads a card back: the single-line personality and scenario after their labels, and the
      dialogue between its label and the final newline. */
  function ParseCard(card: string): Option<seq<string>> {
    match AfterLabel(card, PersonalityLabel)
    case None => None
    case Some(rest) =>
      match Line(rest)
      case None => None
      case Some((personality, rest2)) =>
        match ParseScenario(rest2)
        case None => None
        case Some((scenario, dialogue)) => Some(Fields(personality, scenario, dialogue))
  }

  /** The scenario line after its label, then the dialogue. */
  function ParseScenario(s: string): Option<(string, string)> {
    match AfterLabel(s, ScenarioLabel)
    case None => None
    case Some(rest) =>
      match Line(rest)
      case None => None
      case Some((scenario, rest2)) =>
        match ParseDialog(rest2)
        case None => None
        case Some(dialogue) => Some((scenario, dialogue))
  }

  /** The dialogue between its label and the final newline. */
  function ParseDialog(s: string): Option<string> {
    match AfterLabel(s, DialogLabel)
    case None => None
    case Some(rest) =>
      if |rest| == 0 || rest[|rest| - 1] != '\n' then None else Some(rest[..|rest| - 1])
  }

  lemma DialogRoundTrip(exampleDialogue: string)
    ensures ParseDialog(DialogLabel + (exampleDialogue + "\n")) == Some(exampleDialogue)
  {
    AfterLabelOf(DialogLabel, exampleDialogue + "\n");
    assert (exampleDialogue + "\n")[..|exampleDialogue|] == exampleDialogue;
  }

  lemma ScenarioRoundTrip(worldScenario: string, exampleDialogue: string)
    requires '\n' !in worldScenario
    ensures ParseScenario(ScenarioLabel + (worldScenario + (DialogLabel + (exampleDialogue + "\n"))))
         == Some((worldScenario, exampleDialogue))
  {
    var rest2 := DialogLabel + (exampleDialogue + "\n");
    AfterLabelOf(ScenarioLabel, worldScenario + rest2);
    LineOf(worldScenario, rest2);
    DialogRoundTrip(exampleDialogue);
  }

  /** The card can be read back into its three fields when the personality and the scenario are
      single lines. */
  lemma CardRoundTrip(personality: string, worldScenario: string, exampleDialogue: string)
    requires '\n' !in personality && '\n' !in worldScenario
    ensures ParseCard(CardString(personality, worldScenario, exampleDialogue))
         == Some(Fields(personality, worldScenario, exampleDialogue))
  {
    var rest2 := ScenarioLabel + (worldScenario + (DialogLabel + (exampleDialogue + "\n")));
    AfterLabelOf(PersonalityLabel, personality + rest2);
    LineOf(personality, rest2);
    ScenarioRoundTrip(worldScenario, exampleDialogue);
  }

  // ---- load_character_attributes ------------------------------------------------------------

  /** `load_character_attributes`: when the file is read, every field takes its value from the
      file or the empty string, the greeting has its placeholders filled in, and the card text is
      built; when the file is missing or cannot be parsed, every attribute keeps its initial
      `None`. `userName` is the configured user name and `now` the formatted current time. */
  function LoadCharacterAttributes(file: CardFile, userName: string, now: string): (r: Character)
    ensures !file.Loaded? <==> r == Unloaded
    ensures file.Loaded? ==>
      var d := file.data;
      && (d.charName.None? ==> r.charName == Some(""))
      && (d.charName.Some? ==> r.charName == d.charName)
      && (d.personality.None? ==> r.personality == Some(""))
      && (d.personality.Some? ==> r.personality == d.personality)
      && (d.worldScenario.None? ==> r.worldScenario == Some(""))
      && (d.worldScenario.Some? ==> r.worldScenario == d.worldScenario)
      && (d.exampleDialogue.None? ==> r.exampleDialogue == Some(""))
      && (d.exampleDialogue.Some? ==> r.exampleDialogue == d.exampleDialogue)
      && r.charGreeting == Some(FormatGreeting(d.charGreeting.GetOr(""), userName, r.charName.value, now))
      && r.card == Some(CardString(r.personality.value, r.worldScenario.value, r.exampleDialogue.value))
      && ('\n' !in r.personality.value && '\n' !in r.worldScenario.value ==>
            ParseCard(r.card.value) == Some(Fields(r.personality.value, r.worldScenario.value, r.exampleDialogue.value)))
  {
    match file
    case NotFound => Unloaded
    case Malformed => Unloaded
    case Loaded(d) =>
      var name := d.charName.GetOr("");
      var personality := d.personality.GetOr("");
      var scenario := d.worldScenario.GetOr("");
      var dialogue := d.exampleDialogue.GetOr("");
      var greeting := FormatGreeting(d.charGreeting.GetOr(""), userName, name, now);
      var card := CardString(personality, scenario, dialogue);
      var r := Character(Some(card), Some(name), Some(personality), Some(scenario), Some(greeting), Some(dialogue));
      if '\n' !in personality && '\n' !in scenario then CardRoundTrip(personality, scenario, dialogue); r else r
  }
}

=== FILE: common.dfy ===
/**
 * Small shared definitions: Python's `None`-or-value, a success-or-error result, integer
 * minimum and maximum, and the two facts about an HTTP reply the program looks at.
 */
module Common {

  /** A value that may be absent, the counterpart of a Python `None` default. */
  datatype Option<+T> = None | Some(value: T) {
    function GetOr(default: T): T {
      match this
      case Some(v) => v
      case None => default
    }
  }

  function Min(a: int, b: int): int {
    if a <= b then a else b
  }

  function Max(a: int, b: int): int {
    if a >= b then a else b
  }

  /** The outcome of a step that may raise: the value, or the error that was raised. */
  datatype Result<+T, +E> = Ok(value: T) | Err(error: E)

  /** Python truthiness of an optional string: `None` and `""` are both false. */
  predicate Truthy(o: Option<string>) {
    o.Some? && o.value != ""
  }

  /** What a `requests` call gives back: a transport-level exception, or a response. */
  datatype Reply<T> = TransportError | Response(status: int, body: T)

  /** `response.raise_for_status()` raises exactly for 4xx and 5xx statuses. */
  predicate RaisesForStatus(status: int) {
    400 <= status < 600
  }

  /** The text an f-string gives an optional value: `None` prints as "None". */
  function FormatOption(o: Option<string>): string {
    match o
    case Some(s) => s
    case None => "None"
  }
}

=== FILE: memory.dfy ===
/**
 * The memory manager's pure part: the document each writer appends, the context window around a
 * retrieved document, the most-recent slice, and the token-budgeted short-term selection with
 * its text rendering. The vector database is reduced to its documents in insertion order; the
 * similarity search, the wall clock and the token counter are inputs.
 */
module Memory {
  import opened Common
  import Text

  /** A stored document; every key may be absent. */
  datatype Document = Document(
    timestamp: Option<string>,
    userInput: Option<string>,
    botResponse: Option<string>,
    text: Option<string>)

  // ---- writers ------------------------------------------------------------------------------

  /** The document `write_longterm_memory` stores for one exchange, stamped with `now`. */
  function ExchangeDocument(now: string, userInput: string, botResponse: string): Document {
    Document(Some(now), Some(userInput), Some(botResponse), None)
  }

  /** `write_longterm_memory`: exactly one document is appended and nothing else changes. */
  function WriteLongterm(db: seq<Document>, now: string, userInput: string, botResponse: string): (r: seq<Document>)
    ensures |r| == |db| + 1 && r[..|db|] == db
    ensures r[|db|].userInput == Some(userInput) && r[|db|].botResponse == Some(botResponse)
    ensures r[|db|].timestamp == Some(now) && r[|db|].text.None?
  {
    db + [ExchangeDocument(now, userInput, botResponse)]
  }

  /** `write_tool_used`: a timestamp and the tool description as the bot response; no user input. */
  function WriteToolUsed(db: seq<Document>, now: string, toolUsed: string): (r: seq<Document>)
    ensures |r| == |db| + 1 && r[..|db|] == db
    ensures r[|db|].userInput.None? && r[|db|].botResponse == Some(toolUsed) && r[|db|].timestamp == Some(now)
  {
    db + [Document(Some(now), None, Some(toolUsed), None)]
  }

  /** The one document a fresh database starts with: only a `text` key, "<char>: <greeting>". */
  function GreetingDocument(charName: string, greeting: string): (r: Document)
    ensures !Complete(r) && r.timestamp.None?
    ensures r.text == Some(charName + ": " + greeting)
  {
    Document(None, None, None, Some(charName + ": " + greeting))
  }

  /** One entry of the initial-memory JSON file; every key may be missing. */
  datatype InitialMemory = InitialMemory(time: Option<string>, userInput: Option<string>, botResponse: Option<string>)

  /** `load_initial_memory` over the parsed file (`None` when the file does not exist): each entry is
      handed to `write_longterm_memory` in order, with missing fields as "". `clock(k)` is the time
      the k-th write reads; the entry's own `time` is read but never used. */
  function LoadInitialMemory(db: seq<Document>, file: Option<seq<InitialMemory>>, clock: nat -> string): (r: seq<Document>)
    ensures file.None? ==> r == db
    ensures file.Some? ==> |r| == |db| + |file.value| && r[..|db|] == db
    ensures file.Some? ==> forall k :: 0 <= k < |file.value| ==>
      r[|db| + k] == ExchangeDocument(clock(k), file.value[k].userInput.GetOr(""), file.value[k].botResponse.GetOr(""))
  {
    match file
    case None => db
    case Some(memories) => Inject(db, memories, clock)
  }

  /** The loop of `load_initial_memory`, one write per entry. */
  function Inject(db: seq<Document>, memories: seq<InitialMemory>, clock: nat -> string): (r: seq<Document>)
    ensures |r| == |db| + |memories| && r[..|db|] == db
    ensures forall k :: 0 <= k < |memories| ==>
      r[|db| + k] == ExchangeDocument(clock(k), memories[k].userInput.GetOr(""), memories[k].botResponse.GetOr(""))
    decreases |memories|
  {
    if |memories| == 0 then db
    else
      var n := |memories| - 1;
      var m := memories[n];
      var before := Inject(db, memories[..n], clock);
      assert forall k :: 0 <= k < n ==> memories[..n][k] == memories[k];
      WriteLongterm(before, clock(n), m.userInput.GetOr(""), m.botResponse.GetOr(""))
  }

  /** The `time` field of the file's entries makes no difference to what is stored. */
  lemma LoadIgnoresTime(db: seq<Document>, a: seq<InitialMemory>, b: seq<InitialMemory>, clock: nat -> string)
    requires |a| == |b|
    requires forall k :: 0 <= k < |a| ==> a[k].userInput == b[k].userInput && a[k].botResponse == b[k].botResponse
    ensures LoadInitialMemory(db, Some(a), clock) == LoadInitialMemory(db, Some(b), clock)
  {
    var ra, rb := LoadInitialMemory(db, Some(a), clock), LoadInitialMemory(db, Some(b), clock);
    assert forall i :: 0 <= i < |ra| ==> ra[i] == rb[i] by {
      forall i | 0 <= i < |ra| ensures ra[i] == rb[i] {
        if i < |db| {
          assert ra[..|db|][i] == rb[..|db|][i];
        } else {
          var k := i - |db|;
          assert ra[|db| + k] == ExchangeDocument(clock(k), a[k].userInput.GetOr(""), a[k].botResponse.GetOr(""));
          assert rb[|db| + k] == ExchangeDocument(clock(k), b[k].userInput.GetOr(""), b[k].botResponse.GetOr(""));
        }
      }
    }
  }

  // ---- get_related_memories / get_longterm_memory -------------------------------------------

  /** The position of the first document equal to `m`, as `next(...)` finds it. */
  function FirstIndex(docs: seq<Document>, m: Document): (r: Option<nat>)
    ensures r.None? <==> m !in docs
    ensures r.Some? ==> r.value < |docs| && docs[r.value] == m && m !in docs[..r.value]
    decreases |docs|
  {
    if |docs| == 0 then None
    else if docs[0] == m then Some(0)
    else
      match FirstIndex(docs[1..], m)
      case None => None
      case Some(i) =>
        assert docs[..i + 1] == [docs[0]] + docs[1..][..i];
        Some(i + 1)
  }

  /** What the similarity search gave: it raised, or its hits (at most one, as `top_k=1`). */
  datatype QueryResult = QueryRaised | Hits(hits: seq<Document>)

  /** The answers of `get_related_memories`: the context list, or one of its three messages. */
  datatype Related =
    | Context(documents: seq<Document>)
    | NotLocated(memory: Document)
    | NoMemories
    | RetrievalError

  /** `get_related_memories`: the best hit's first occurrence in the database with one document
      on either side where there is one. */
  function RelatedMemories(query: QueryResult, docs: seq<Document>): (r: Related)
    ensures r == RetrievalError <==> query.QueryRaised?
    ensures r == NoMemories <==> query.Hits? && |query.hits| == 0
    ensures r.NotLocated? <==> query.Hits? && |query.hits| > 0 && query.hits[0] !in docs
    ensures r.NotLocated? ==> r.memory == query.hits[0]
    ensures r.Context? ==> query.Hits? && |query.hits| > 0 && query.hits[0] in r.documents && 1 <= |r.documents| <= 3
    // the window is the first match with its neighbours that exist, contiguous and in order
    ensures r.Context? ==>
      var i := FirstIndex(docs, query.hits[0]).value;
      var lo := if i == 0 then 0 else i - 1;
      lo + |r.documents| <= |docs| && r.documents == docs[lo..lo + |r.documents|]
      && |r.documents| == (if i > 0 then 1 else 0) + 1 + (if i + 1 < |docs| then 1 else 0)
  {
    match query
    case QueryRaised => RetrievalError
    case Hits(hits) =>
      if |hits| == 0 then NoMemories
      else
        match FirstIndex(docs, hits[0])
        case None => NotLocated(hits[0])
        case Some(i) =>
          var start := Max(i - 1, 0);
          var end := Min(i + 2, |docs|);
          assert docs[start..end][i - start] == hits[0];
          Context(docs[start..end])
  }

  /** `get_longterm_memory`: the related memories when long-term memory is in use. The fallback
      "No relevant memories found." (`NoneRelevant`) is for a falsy answer. */
  datatype LongTerm = Disabled | Past(related: Related) | NoneRelevant

  /** Python truthiness of what `get_related_memories` returns: a list is falsy when empty, and the
      three messages are non-empty strings. */
  predicate RelatedTruthy(r: Related) {
    r.Context? ==> |r.documents| > 0
  }

  function LongTermMemory(enabled: bool, query: QueryResult, docs: seq<Document>): (r: LongTerm)
    ensures r.Disabled? <==> !enabled
    ensures r.Past? ==> r.related == RelatedMemories(query, docs)
    // the fallback is dead: the context window is never empty
    ensures r != NoneRelevant
  {
    if !enabled then Disabled
    else
      var past := RelatedMemories(query, docs);
      if RelatedTruthy(past) then Past(past) else NoneRelevant
  }

  // ---- get_shortterm_memories_recent --------------------------------------------------------

  /** Where Python's `s[start:]` begins on a list of length `n`. */
  function SliceStart(start: int, n: nat): (r: nat)
    ensures r <= n
  {
    if start < 0 then Max(start + n, 0) else Min(start, n)
  }

  /** `get_shortterm_memories_recent(k)`: the documents of `memory_dict[-k:]`. */
  function Recent(docs: seq<Document>, k: int): (r: seq<Document>)
    ensures k > 0 ==> |r| == Min(k, |docs|) && r == docs[|docs| - |r|..]
    ensures k == 0 ==> r == docs
    ensures k < 0 ==> r == docs[Min(-k, |docs|)..]
  {
    docs[SliceStart(-k, |docs|)..]
  }

  /** Asking for more recent entries only adds older ones in front. */
  lemma RecentGrowsAtTheFront(docs: seq<Document>, k: int, k': int)
    requires 0 < k <= k'
    ensures |Recent(docs, k)| <= |Recent(docs, k')|
    ensures Recent(docs, k') == Recent(docs, k')[..|Recent(docs, k')| - |Recent(docs, k)|] + Recent(docs, k)
  {
    var a, b := Recent(docs, k), Recent(docs, k');
    assert b[|b| - |a|..] == a;
  }

  // ---- get_shortterm_memories_tokenlimit ----------------------------------------------------

  /** A user/bot exchange as the selection keeps it. */
  datatype Exchange = Exchange(userInput: string, botResponse: string)

  /** An entry the selection considers: both fields present and non-empty. */
  predicate Complete(d: Document) {
    Truthy(d.userInput) && Truthy(d.botResponse)
  }

  function ExchangeOf(d: Document): (e: Exchange)
    requires Complete(d)
    ensures e.userInput != "" && e.botResponse != ""
  {
    Exchange(d.userInput.value, d.botResponse.value)
  }

  /** The string whose tokens are counted for an entry. */
  function TextStr(e: Exchange): string {
    "user_input: " + e.userInput + "\nbot_response: " + e.botResponse
  }

  /** The summed token length of some exchanges. */
  function Cost(es: seq<Exchange>, count: string -> nat): nat {
    if |es| == 0 then 0 else count(TextStr(es[0])) + Cost(es[1..], count)
  }

  /** The complete entries, in the order given. */
  function Candidates(docs: seq<Document>): (r: seq<Exchange>)
    ensures |r| <= |docs|
    ensures forall k :: 0 <= k < |r| ==> r[k].userInput != "" && r[k].botResponse != ""
  {
    if |docs| == 0 then []
    else if Complete(docs[0]) then [ExchangeOf(docs[0])] + Candidates(docs[1..])
    else Candidates(docs[1..])
  }

  function Reverse<T>(s: seq<T>): (r: seq<T>)
    ensures |r| == |s| && forall i :: 0 <= i < |s| ==> r[i] == s[|s| - 1 - i]
  {
    seq(|s|, i requires 0 <= i < |s| => s[|s| - 1 - i])
  }

  /** The scan of `get_shortterm_memories_tokenlimit` over the entries newest first, with `used`
      tokens already taken: incomplete entries are skipped, and the first complete entry that
      would overflow the limit ends the scan. */
  function Select(newestFirst: seq<Document>, used: int, limit: int, count: string -> nat): (r: seq<Exchange>)
    ensures |r| > 0 ==> r[0].userInput != "" && r[0].botResponse != ""
    decreases |newestFirst|
  {
    if |newestFirst| == 0 then []
    else
      var d := newestFirst[0];
      if !Complete(d) then Select(newestFirst[1..], used, limit, count)
      else
        var e := ExchangeOf(d);
        var len := count(TextStr(e));
        if used + len > limit then [] else [e] + Select(newestFirst[1..], used + len, limit, count)
  }

  lemma {:induction false} SelectIsPrefix(newestFirst: seq<Document>, used: int, limit: int, count: string -> nat)
    ensures var c, s := Candidates(newestFirst), Select(newestFirst, used, limit, count);
      |s| <= |c| && s == c[..|s|]
    decreases |newestFirst|
  {
    if |newestFirst| > 0 {
      var d, rest := newestFirst[0], newestFirst[1..];
      if !Complete(d) {
        SelectIsPrefix(rest, used, limit, count);
      } else {
        var len := count(TextStr(ExchangeOf(d)));
        if used + len <= limit {
          SelectIsPrefix(rest, used + len, limit, count);
        }
      }
    }
  }

  lemma {:induction false} SelectFits(newestFirst: seq<Document>, used: int, limit: int, count: string -> nat)
    ensures var s := Select(newestFirst, used, limit, count);
      |s| > 0 ==> used + Cost(s, count) <= limit
    decreases |newestFirst|
  {
    if |newestFirst| > 0 {
      var d, rest := newestFirst[0], newestFirst[1..];
      if !Complete(d) {
        SelectFits(rest, used, limit, count);
      } else {
        var e := ExchangeOf(d);
        var len := count(TextStr(e));
        if used + len <= limit {
          SelectFits(rest, used + len, limit, count);
          var s' := Select(rest, used + len, limit, count);
          assert ([e] + s')[1..] == s';
        }
      }
    }
  }

  lemma {:induction false} SelectStopsAtOverflow(newestFirst: seq<Document>, used: int, limit: int, count: string -> nat)
    ensures var c, s := Candidates(newestFirst), Select(newestFirst, used, limit, count);
      |s| < |c| ==> used + Cost(c[..|s| + 1], count) > limit
    decreases |newestFirst|
  {
    if |newestFirst| > 0 {
      var d, rest := newestFirst[0], newestFirst[1..];
      if !Complete(d) {
        SelectStopsAtOverflow(rest, used, limit, count);
        assert Candidates(newestFirst) == Candidates(rest);
        assert Select(newestFirst, used, limit, count) == Select(rest, used, limit, count);
      } else {
        var e := ExchangeOf(d);
        var len := count(TextStr(e));
        var c := Candidates(newestFirst);
        assert c == [e] + Candidates(rest);
        if used + len > limit {
          assert Select(newestFirst, used, limit, count) == [];
          CostOfConsPrefix(e, Candidates(rest), 0, count);
        } else {
          SelectStopsAtOverflow(rest, used + len, limit, count);
          var s' := Select(rest, used + len, limit, count);
          assert Select(newestFirst, used, limit, count) == [e] + s';
          if |s'| + 1 < |c| {
            CostOfConsPrefix(e, Candidates(rest), |s'| + 1, count);
          }
        }
      }
    }
  }

  lemma CostOfConsPrefix(e: Exchange, es: seq<Exchange>, k: nat, count: string -> nat)
    requires k <= |es|
    ensures Cost(([e] + es)[..k + 1], count) == count(TextStr(e)) + Cost(es[..k], count)
  {
    var p := ([e] + es)[..k + 1];
    assert p[0] == e && p[1..] == es[..k];
  }

  /** The selection is the longest run of complete entries, newest first, whose tokens fit: it
      is a prefix of the candidates, it fits, and one more candidate would not. No later, smaller
      entry is picked up after the first that overflows. */
  lemma SelectIsLongestFittingPrefix(newestFirst: seq<Document>, used: int, limit: int, count: string -> nat)
    ensures var c, s := Candidates(newestFirst), Select(newestFirst, used, limit, count);
      |s| <= |c| && s == c[..|s|]
      && (|s| > 0 ==> used + Cost(s, count) <= limit)
      && (|s| < |c| ==> used + Cost(c[..|s| + 1], count) > limit)
  {
    SelectIsPrefix(newestFirst, used, limit, count);
    SelectFits(newestFirst, used, limit, count);
    SelectStopsAtOverflow(newestFirst, used, limit, count);
  }

  /** One selected exchange as it appears in the prompt. */
  function FormatExchange(e: Exchange): string {
    "{user}: " + e.userInput + "\n{char}: " + e.botResponse
  }

  /** The selected exchanges in chronological order, one per line pair, joined by newlines. */
  function FormatMemories(chronological: seq<Exchange>): (r: string)
    ensures r == "" <==> |chronological| == 0
    ensures |chronological| > 0 ==> FormatExchange(chronological[0]) <= r
  {
    var parts := seq(|chronological|, i requires 0 <= i < |chronological| => FormatExchange(chronological[i]));
    JoinEmptyIffNoParts("\n", parts);
    Text.Join("\n", parts)
  }

  lemma {:induction false} JoinEmptyIffNoParts(sep: string, parts: seq<string>)
    requires forall i :: 0 <= i < |parts| ==> parts[i] != ""
    ensures Text.Join(sep, parts) == "" <==> |parts| == 0
    ensures |parts| > 0 ==> parts[0] <= Text.Join(sep, parts)
  {
    if |parts| > 1 {
      assert Text.Join(sep, parts) == parts[0] + sep + Text.Join(sep, parts[1..]);
      assert |Text.Join(sep, parts)| >= |parts[0]|;
    }
  }

  /** The loop of `get_shortterm_memories_tokenlimit` over the entries newest first: it keeps a
      running token total and stops at the first complete entry that would overflow the limit. */
  method SelectNewest(newestFirst: seq<Document>, limit: int, count: string -> nat) returns (acc: seq<Exchange>)
    ensures acc == Select(newestFirst, 0, limit, count)
  {
    acc := [];
    var used := 0;
    var j := 0;
    var full := false;
    while j < |newestFirst| && !full
      invariant j <= |newestFirst|
      invariant used == Cost(acc, count)
      invariant !full ==> Select(newestFirst, 0, limit, count) == acc + Select(newestFirst[j..], used, limit, count)
      invariant full ==> Select(newestFirst, 0, limit, count) == acc
      decreases |newestFirst| - j, if full then 0 else 1
    {
      var d := newestFirst[j];
      if Complete(d) {
        var e := ExchangeOf(d);
        var len := count(TextStr(e));
        if used + len > limit {
          SelectStep(newestFirst, j, used, limit, count);
          full := true;
        } else {
          TakeStep(newestFirst, j, acc, used, limit, count);
          CostAppend(acc, e, count);
          acc := acc + [e];
          used := used + len;
          j := j + 1;
        }
      } else {
        SelectStep(newestFirst, j, used, limit, count);
        j := j + 1;
      }
    }
  }

  /** Taking the entry at `j` moves it from the rest of the scan to the exchanges taken. */
  lemma TakeStep(newestFirst: seq<Document>, j: nat, acc: seq<Exchange>, used: int, limit: int, count: string -> nat)
    requires j < |newestFirst| && Complete(newestFirst[j])
    requires used + count(TextStr(ExchangeOf(newestFirst[j]))) <= limit
    ensures var e := ExchangeOf(newestFirst[j]);
      acc + Select(newestFirst[j..], used, limit, count)
      == (acc + [e]) + Select(newestFirst[j + 1..], used + count(TextStr(e)), limit, count)
  {
    SelectStep(newestFirst, j, used, limit, count);
  }

  /** `get_shortterm_memories_tokenlimit`: the text, and the exchanges it shows (chronological).
      `count` stands for `token_count(...)['length']`. */
  method ShortTermByTokens(docs: seq<Document>, limit: int, count: string -> nat) returns (out: string, selected: seq<Exchange>)
    ensures var c := Candidates(Reverse(docs));
      |selected| <= |c| && Reverse(selected) == c[..|selected|]
    ensures |selected| > 0 ==> Cost(Reverse(selected), count) <= limit
    ensures |selected| < |Candidates(Reverse(docs))| ==>
      Cost(Candidates(Reverse(docs))[..|selected| + 1], count) > limit
    ensures out == FormatMemories(selected)
  {
    var newestFirst := Reverse(docs);
    var acc := SelectNewest(newestFirst, limit, count);
    SelectIsLongestFittingPrefix(newestFirst, 0, limit, count);
    ReverseReverse(acc);
    selected := Reverse(acc);
    out := FormatMemories(selected);
  }

  lemma SelectStep(newestFirst: seq<Document>, j: nat, used: int, limit: int, count: string -> nat)
    requires j < |newestFirst|
    ensures !Complete(newestFirst[j]) ==>
      Select(newestFirst[j..], used, limit, count) == Select(newestFirst[j + 1..], used, limit, count)
    ensures Complete(newestFirst[j]) ==>
      var e := ExchangeOf(newestFirst[j]);
      var len := count(TextStr(e));
      Select(newestFirst[j..], used, limit, count)
      == if used + len > limit then [] else [e] + Select(newestFirst[j + 1..], used + len, limit, count)
  {
    assert newestFirst[j..][1..] == newestFirst[j + 1..];
  }

  lemma {:induction false} CostAppend(es: seq<Exchange>, e: Exchange, count: string -> nat)
    ensures Cost(es + [e], count) == Cost(es, count) + count(TextStr(e))
    decreases |es|
  {
    if |es| > 0 {
      assert (es + [e])[1..] == es[1..] + [e];
      CostAppend(es[1..], e, count);
    }
  }

  lemma ReverseReverse<T>(s: seq<T>)
    ensures Reverse(Reverse(s)) == s
  {
  }

  /** An incomplete entry at the old end of the scan never changes the selection. */
  lemma {:induction false} SelectSkipsIncompleteOldest(newestFirst: seq<Document>, d: Document, used: int, limit: int, count: string -> nat)
    requires !Complete(d)
    ensures Select(newestFirst + [d], used, limit, count) == Select(newestFirst, used, limit, count)
    decreases |newestFirst|
  {
    if |newestFirst| == 0 {
      assert ([] + [d])[1..] == [];
    } else {
      var s := newestFirst + [d];
      assert s[0] == newestFirst[0] && s[1..] == newestFirst[1..] + [d];
      SelectSkipsIncompleteOldest(newestFirst[1..], d, used, limit, count);
      if Complete(newestFirst[0]) {
        var e := ExchangeOf(newestFirst[0]);
        SelectSkipsIncompleteOldest(newestFirst[1..], d, used + count(TextStr(e)), limit, count);
      }
    }
  }

  /** The greeting a fresh database starts with is never shown: whatever is written after it, the
      selection is the same as without it. */
  lemma {:induction false} GreetingNeverSelected(charName: string, greeting: string, later: seq<Document>, limit: int, count: string -> nat)
    ensures Select(Reverse([GreetingDocument(charName, greeting)] + later), 0, limit, count) == Select(Reverse(later), 0, limit, count)
  {
    var g := GreetingDocument(charName, greeting);
    assert Reverse([g] + later) == Reverse(later) + [g];
    SelectSkipsIncompleteOldest(Reverse(later), g, 0, limit, count);
  }

  /** A tool-use record is never shown: the selection is the same as without it. */
  lemma {:induction false} ToolUseNeverSelected(db: seq<Document>, now: string, toolUsed: string, limit: int, count: string -> nat)
    ensures Select(Reverse(WriteToolUsed(db, now, toolUsed)), 0, limit, count) == Select(Reverse(db), 0, limit, count)
  {
    var r := Reverse(WriteToolUsed(db, now, toolUsed));
    assert r[1..] == Reverse(db);
  }

  /** A freshly written exchange whose tokens fit is the newest one shown. */
  lemma {:induction false} WrittenExchangeIsShown(db: seq<Document>, now: string, userInput: string, botResponse: string,
                                                  limit: int, count: string -> nat)
    requires userInput != "" && botResponse != ""
    requires count(TextStr(Exchange(userInput, botResponse))) <= limit
    ensures var s := Select(Reverse(WriteLongterm(db, now, userInput, botResponse)), 0, limit, count);
      |s| > 0 && s[0] == Exchange(userInput, botResponse)
  {
    var r := Reverse(WriteLongterm(db, now, userInput, botResponse));
    assert r[0] == ExchangeDocument(now, userInput, botResponse);
  }
}

=== FILE: pcm.dfy ===
/**
 * Signed 16-bit PCM: the sample range, NumPy's `clip(...).astype('int16')` conversion
 * from floating point, and `np.frombuffer(chunk, dtype='int16')` over little-endian bytes.
 */
module Pcm {
  import opened Common

  newtype Byte = x: int | 0 <= x < 256

  const Int16Min: int := -32768
  const Int16Max: int := 32767

  predicate InInt16(x: int) {
    Int16Min <= x <= Int16Max
  }

  predicate AllInInt16(s: seq<int>) {
    forall i :: 0 <= i < |s| ==> InInt16(s[i])
  }

  function Abs(x: int): nat {
    if x < 0 then -x else x
  }

  /** `np.clip(x, -32768, 32767)` on a float. */
  function Clamp(x: real): (r: real)
    ensures Int16Min as real <= r <= Int16Max as real
    ensures Int16Min as real <= x <= Int16Max as real ==> r == x
  {
    if x < Int16Min as real then Int16Min as real
    else if x > Int16Max as real then Int16Max as real
    else x
  }

  /** A float-to-integer cast, which drops the fraction (rounds toward zero). */
  function Truncate(x: real): (r: int)
    ensures 0.0 <= x ==> r as real <= x < r as real + 1.0
    ensures x < 0.0 ==> r as real - 1.0 < x <= r as real
  {
    if x >= 0.0 then x.Floor else -((-x).Floor)
  }

  /** `np.clip(x, -32768, 32767).astype('int16')`: saturates instead of wrapping. */
  function ToInt16(x: real): (r: int)
    ensures InInt16(r)
    ensures x >= Int16Max as real ==> r == Int16Max
    ensures x <= Int16Min as real ==> r == Int16Min
    ensures Int16Min as real <= x <= Int16Max as real ==> r == Truncate(x)
  {
    Truncate(Clamp(x))
  }

  /** A whole number survives the float round trip unchanged. */
  lemma ToInt16OfInteger(x: int)
    requires InInt16(x)
    ensures ToInt16(x as real) == x
  {
    assert (x as real).Floor == x;
    assert (-(x as real)).Floor == -x;
  }

  /** An int16 buffer converted to float64, as NumPy does before multiplying by a float. */
  function AsReals(s: seq<int>): (r: seq<real>)
    ensures |r| == |s| && forall i :: 0 <= i < |s| ==> r[i] == s[i] as real
  {
    seq(|s|, i requires 0 <= i < |s| => s[i] as real)
  }

  /** `np.clip(v * gain, -32768, 32767).astype('int16')` for one sample. */
  function Amplify(v: real, gain: real): (r: int)
    ensures InInt16(r)
  {
    ToInt16(v * gain)
  }

  function AmplifyAll(y: seq<real>, gain: real): (r: seq<int>)
    ensures |r| == |y| && AllInInt16(r)
    ensures forall i :: 0 <= i < |y| ==> r[i] == Amplify(y[i], gain)
  {
    seq(|y|, i requires 0 <= i < |y| => Amplify(y[i], gain))
  }

  /** The parameters set on a `wave` writer before any frames are written. */
  datatype WavFormat = WavFormat(channels: nat, sampleWidth: nat, frameRate: nat)

  /** A WAV buffer: its format and the samples written into it. */
  datatype WavBuffer = WavBuffer(format: WavFormat, samples: seq<int>)

  datatype DecodeError = OddLength(length: nat)

  /** The sample stored little-endian in bytes `lo`, `hi` (two's complement). */
  function SampleOf(lo: Byte, hi: Byte): (x: int)
    ensures InInt16(x)
  {
    var u := lo as int + 256 * hi as int;
    if u >= 32768 then u - 65536 else u
  }

  function BytesOf(x: int): (b: seq<Byte>)
    requires InInt16(x)
    ensures |b| == 2 && SampleOf(b[0], b[1]) == x
  {
    var u := if x < 0 then x + 65536 else x;
    [(u % 256) as Byte, (u / 256) as Byte]
  }

  /** Two bytes read as a sample and written back are the same two bytes. */
  lemma BytesOfSampleOf(lo: Byte, hi: Byte)
    ensures BytesOf(SampleOf(lo, hi)) == [lo, hi]
  {
    var u := lo as int + 256 * hi as int;
    var x := SampleOf(lo, hi);
    assert (if x < 0 then x + 65536 else x) == u;
    assert u % 256 == lo as int && u / 256 == hi as int;
  }

  /** `np.frombuffer(chunk, dtype='int16')`: consecutive byte pairs read as samples; a buffer whose
      length is not a multiple of two is refused. */
  function Decode(bytes: seq<Byte>): (r: Result<seq<int>, DecodeError>)
    ensures r.Ok? <==> |bytes| % 2 == 0
    ensures r.Ok? ==> |r.value| == |bytes| / 2 && AllInInt16(r.value)
    ensures r.Ok? ==> forall i :: 0 <= i < |r.value| ==> r.value[i] == SampleOf(bytes[2 * i], bytes[2 * i + 1])
    decreases |bytes|
  {
    if |bytes| % 2 != 0 then Err(OddLength(|bytes|))
    else if |bytes| == 0 then Ok([])
    else
      var rest := Decode(bytes[2..]);
      Ok([SampleOf(bytes[0], bytes[1])] + rest.value)
  }

  /** The inverse of `Decode`: each sample as two little-endian bytes. */
  function Encode(samples: seq<int>): (b: seq<Byte>)
    requires AllInInt16(samples)
    ensures |b| == 2 * |samples|
  {
    if |samples| == 0 then [] else BytesOf(samples[0]) + Encode(samples[1..])
  }

  lemma {:induction false} DecodeEncode(samples: seq<int>)
    requires AllInInt16(samples)
    ensures Decode(Encode(samples)) == Ok(samples)
  {
    if |samples| > 0 {
      DecodeEncode(samples[1..]);
      var b := Encode(samples);
      assert b[2..] == Encode(samples[1..]);
      assert samples == [samples[0]] + samples[1..];
    }
  }

  lemma {:induction false} EncodeDecode(bytes: seq<Byte>)
    requires |bytes| % 2 == 0
    ensures Decode(bytes).Ok? && Encode(Decode(bytes).value) == bytes
    decreases |bytes|
  {
    if |bytes| > 0 {
      EncodeDecode(bytes[2..]);
      var s := Decode(bytes).value;
      assert s[1..] == Decode(bytes[2..]).value;
      BytesOfSampleOf(bytes[0], bytes[1]);
      assert bytes == [bytes[0], bytes[1]] + bytes[2..];
    }
  }
}

=== FILE: piper.dfy ===
/**
 * Local Piper speech: `text_to_speech_with_pipelining` splits the reply into sentences with
 * `re.split(r'(?<=\.)\s', text)`, drops the pieces that are blank, and synthesises and plays the
 * stripped pieces one after the other. Synthesis and playback are recorded as a trace of steps;
 * the voice itself and the sound device are not modelled.
 */
module Piper {
  import opened Common
  import opened Text
  import opened Pcm

  // ---- re.split(r'(?<=\.)\s', text) -----------------------------------------------------------

  /** The pattern matches the whitespace character at `i`: it directly follows a `.`. */
  predicate BoundaryAt(t: string, i: int) {
    0 < i < |t| && t[i - 1] == '.' && IsSpace(t[i])
  }

  /** No match of the pattern inside `t`. */
  predicate NoBoundary(t: string) {
    forall i :: 0 < i < |t| ==> !BoundaryAt(t, i)
  }

  /** The first match of the pattern at or after `from`. */
  function FirstBoundary(t: string, from: nat): (r: Option<nat>)
    requires from <= |t|
    ensures r.Some? ==> from <= r.value < |t| && BoundaryAt(t, r.value)
    ensures r.Some? ==> forall i :: from <= i < r.value ==> !BoundaryAt(t, i)
    ensures r.None? ==> forall i :: from <= i < |t| ==> !BoundaryAt(t, i)
    decreases |t| - from
  {
    if from == |t| then None
    else if BoundaryAt(t, from) then Some(from)
    else FirstBoundary(t, from + 1)
  }

  /** The pieces `re.split` returns: the text cut at every whitespace character that follows a
      `.`, the whitespace character itself dropped. Each piece but the last ends with `.`, and no
      piece holds a further match. */
  function Split(t: string): (pieces: seq<string>)
    ensures |pieces| > 0
    ensures forall k :: 0 <= k < |pieces| - 1 ==> |pieces[k]| > 0 && pieces[k][|pieces[k]| - 1] == '.'
    ensures forall k :: 0 <= k < |pieces| ==> NoBoundary(pieces[k])
    decreases |t|
  {
    match FirstBoundary(t, 0)
    case None => [t]
    case Some(i) =>
      var rest := Split(t[i + 1..]);
      assert NoBoundary(t[..i]) by {
        forall j | 0 < j < i ensures !BoundaryAt(t[..i], j) {
          assert !BoundaryAt(t, j);
          assert t[..i][j - 1] == t[j - 1] && t[..i][j] == t[j];
        }
      }
      [t[..i]] + rest
  }

  /** The whitespace characters `re.split` dropped, in order. */
  function Separators(t: string): (seps: seq<char>)
    ensures forall k :: 0 <= k < |seps| ==> IsSpace(seps[k])
    decreases |t|
  {
    match FirstBoundary(t, 0)
    case None => []
    case Some(i) => [t[i]] + Separators(t[i + 1..])
  }

  /** The pieces put back together with one separator between each two. */
  function Interleave(pieces: seq<string>, seps: seq<char>): string
    requires |pieces| == |seps| + 1
    decreases |seps|
  {
    if |seps| == 0 then pieces[0] else pieces[0] + [seps[0]] + Interleave(pieces[1..], seps[1..])
  }

  /** Nothing is lost by the split: the pieces and the dropped separators rebuild the text. */
  lemma {:induction false} SplitRoundTrip(t: string)
    ensures |Split(t)| == |Separators(t)| + 1
    ensures Interleave(Split(t), Separators(t)) == t
    decreases |t|
  {
    match FirstBoundary(t, 0)
    case None =>
    case Some(i) =>
      SplitRoundTrip(t[i + 1..]);
      assert Split(t)[1..] == Split(t[i + 1..]);
      assert t == t[..i] + [t[i]] + t[i + 1..];
  }

  /** Text without a `.` followed by whitespace stays in one piece. */
  lemma SplitWithoutBoundary(t: string)
    requires NoBoundary(t)
    ensures Split(t) == [t] && Separators(t) == []
  {
  }

  // ---- the chunk loop -------------------------------------------------------------------------

  /** Non-empty, and neither starting nor ending with whitespace: what `strip` leaves unchanged. */
  predicate Trimmed(c: string) {
    |c| > 0 && !IsSpace(c[0]) && !IsSpace(c[|c| - 1])
  }

  /** What one piece contributes: the piece stripped, or nothing when it is blank. */
  function Spoken(p: string): (r: seq<string>)
    ensures |r| <= 1
    ensures |r| == 0 <==> AllSpace(p)
    ensures |r| == 1 ==> r[0] == Strip(p) && Trimmed(r[0])
  {
    var c := Strip(p);
    StripEmptyIffAllSpace(p);
    if c == "" then [] else [c]
  }

  /** The chunks spoken, in order: each piece stripped, blank pieces left out. */
  function Chunks(pieces: seq<string>): (chunks: seq<string>)
    ensures |chunks| <= |pieces|
    ensures forall k :: 0 <= k < |chunks| ==> Trimmed(chunks[k])
  {
    if |pieces| == 0 then [] else Spoken(pieces[0]) + Chunks(pieces[1..])
  }

  /** A piece is spoken exactly when it is not all whitespace. */
  lemma {:induction false} ChunksKeepNonBlank(pieces: seq<string>)
    ensures |Chunks(pieces)| == |pieces| - CountBlank(pieces)
    decreases |pieces|
  {
    if |pieces| > 0 {
      ChunksKeepNonBlank(pieces[1..]);
    }
  }

  function CountBlank(pieces: seq<string>): nat {
    if |pieces| == 0 then 0 else (if AllSpace(pieces[0]) then 1 else 0) + CountBlank(pieces[1..])
  }

  /** The WAV parameters `synthesize` sets before writing frames: mono, 16-bit, at the voice's
      sample rate. */
  function SynthesisFormat(sampleRate: nat): (f: WavFormat)
    ensures f.channels == 1 && f.sampleWidth == 2 && f.frameRate == sampleRate
  {
    WavFormat(1, 2, sampleRate)
  }

  /** One step of the pipeline: a chunk synthesised into a WAV buffer of the given format, or the
      buffer of a chunk played to the end. */
  datatype Step = Synthesized(chunk: string, format: WavFormat) | Played(chunk: string)

  /** The steps for these chunks when each is synthesised and then played before the next. */
  function Pipeline(chunks: seq<string>, sampleRate: nat): seq<Step> {
    if |chunks| == 0 then []
    else [Synthesized(chunks[0], SynthesisFormat(sampleRate)), Played(chunks[0])] + Pipeline(chunks[1..], sampleRate)
  }

  /** Step `2k` synthesises chunk `k` and step `2k + 1` plays it: chunk `k + 1` is synthesised
      only after chunk `k` has been played. */
  lemma {:induction false} PipelineAlternates(chunks: seq<string>, sampleRate: nat)
    ensures |Pipeline(chunks, sampleRate)| == 2 * |chunks|
    ensures forall k :: 0 <= k < |chunks| ==>
      Pipeline(chunks, sampleRate)[2 * k] == Synthesized(chunks[k], SynthesisFormat(sampleRate))
      && Pipeline(chunks, sampleRate)[2 * k + 1] == Played(chunks[k])
    decreases |chunks|
  {
    if |chunks| > 0 {
      PipelineAlternates(chunks[1..], sampleRate);
      var p := Pipeline(chunks, sampleRate);
      assert p[2..] == Pipeline(chunks[1..], sampleRate);
      forall k | 1 <= k < |chunks|
        ensures p[2 * k] == Synthesized(chunks[k], SynthesisFormat(sampleRate)) && p[2 * k + 1] == Played(chunks[k])
      {
        assert p[2 * k] == p[2..][2 * (k - 1)] && p[2 * k + 1] == p[2..][2 * (k - 1) + 1];
        assert chunks[k] == chunks[1..][k - 1];
      }
    }
  }

  lemma {:induction false} PipelineAppend(a: seq<string>, b: seq<string>, sampleRate: nat)
    ensures Pipeline(a + b, sampleRate) == Pipeline(a, sampleRate) + Pipeline(b, sampleRate)
    decreases |a|
  {
    if |a| == 0 {
      assert a + b == b;
    } else {
      assert (a + b)[1..] == a[1..] + b;
      PipelineAppend(a[1..], b, sampleRate);
    }
  }

  /** The steps for one piece: none when it strips to nothing, otherwise its stripped text
      synthesised and then played. */
  lemma SpokenSteps(p: string, sampleRate: nat)
    ensures var c := Strip(p);
      Pipeline(Spoken(p), sampleRate)
      == if c != "" then [Synthesized(c, SynthesisFormat(sampleRate)), Played(c)] else []
  {
    if Strip(p) != "" {
      assert Spoken(p)[1..] == [];
    }
  }

  /** The chunk loop of `text_to_speech_with_pipelining`, piece by piece: a piece that strips to
      nothing is passed over; any other is synthesised stripped and then played to the end before
      the next piece is looked at. */
  function SpeakPieces(pieces: seq<string>, sampleRate: nat): (r: seq<Step>)
    ensures |r| <= 2 * |pieces|
    ensures forall st :: st in r ==> st.chunk != ""
  {
    if |pieces| == 0 then []
    else
      var head: seq<Step> := var c := Strip(pieces[0]);
        if c == "" then [] else [Synthesized(c, SynthesisFormat(sampleRate)), Played(c)];
      head + SpeakPieces(pieces[1..], sampleRate)
  }

  /** The loop speaks exactly the non-blank pieces, stripped, in order, each synthesised and then
      played. */
  lemma {:induction false} SpeakPiecesIsPipeline(pieces: seq<string>, sampleRate: nat)
    ensures SpeakPieces(pieces, sampleRate) == Pipeline(Chunks(pieces), sampleRate)
    decreases |pieces|
  {
    if |pieces| > 0 {
      SpeakPiecesIsPipeline(pieces[1..], sampleRate);
      SpokenSteps(pieces[0], sampleRate);
      PipelineAppend(Spoken(pieces[0]), Chunks(pieces[1..]), sampleRate);
    }
  }

  /** `text_to_speech_with_pipelining`: the text split into sentences, and each non-blank sentence,
      stripped, synthesised into a mono 16-bit buffer and played before the next is synthesised. */
  function TextToSpeech(text: string, sampleRate: nat): (trace: seq<Step>)
    ensures var chunks := Chunks(Split(text));
      && |trace| == 2 * |chunks|
      && (forall k :: 0 <= k < |chunks| ==> trace[2 * k] == Synthesized(chunks[k], SynthesisFormat(sampleRate)))
      && (forall k :: 0 <= k < |chunks| ==> trace[2 * k + 1] == Played(chunks[k]))
  {
    SpeakPiecesIsPipeline(Split(text), sampleRate);
    PipelineAlternates(Chunks(Split(text)), sampleRate);
    SpeakPieces(Split(text), sampleRate)
  }
}

=== FILE: stt.dfy ===
/**
 * The frame logic of `STTManager`: amplification, the RMS guard of `prepare_audio_data`, the
 * silence detector, the two bounded recording loops, the reshaping of the transcription
 * server's JSON, and the `loopcheck` counter that gates the post-utterance callback.
 *
 * The RMS is represented by its square (the mean square of the clipped samples): the detector's
 * test `rms > threshold` is the same as `mean_square > threshold * threshold` because the
 * threshold is never negative (it starts at 10 and is only ever set to `max(..., 10)`).
 */
module Stt {
  import opened Common
  import opened Pcm
  import opened Text

  /** `range(50)` in both recording loops. */
  const MaxRecordFrames: nat := 50
  /** `max_silent_frames` of the Vosk and the server recording loops. */
  const VoskMaxSilentFrames: nat := 20
  const ServerMaxSilentFrames: nat := 3
  /** `self.SAMPLE_RATE`. */
  const SampleRate: nat := 16000
  /** The post-utterance callback runs while `loopcheck` has not passed this value. */
  const LoopcheckLimit: nat := 10

  // ---- amplify_audio / prepare_audio_data ------------------------------------------------

  /** `amplify_audio`: every sample times the gain, saturated to int16. */
  function AmplifyAudio(data: seq<int>, gain: real): (r: seq<int>)
    ensures |r| == |data| && AllInInt16(r)
  {
    AmplifyAll(AsReals(data), gain)
  }

  lemma ProductNonNegative(a: real, b: real)
    requires a >= 0.0 && b >= 0.0
    ensures a * b >= 0.0
  {
  }

  lemma ProductNonPositive(a: real, b: real)
    requires a <= 0.0 && b >= 0.0
    ensures a * b <= 0.0
  {
  }

  /** With a gain of at least 1 a sample keeps its sign and does not get quieter. */
  lemma AmplifySampleNeverQuieter(x: int, gain: real)
    requires InInt16(x) && gain >= 1.0
    ensures 0 <= x ==> x <= Amplify(x as real, gain)
    ensures x < 0 ==> Amplify(x as real, gain) <= x
  {
    var d := gain - 1.0;
    assert x as real * gain == x as real + x as real * d;
    if x >= 0 {
      ProductNonNegative(x as real, d);
    } else {
      ProductNonPositive(x as real, d);
    }
  }

  /** With a gain of at least 1 no sample gets quieter or changes sign. */
  lemma AmplifyNeverQuieter(data: seq<int>, gain: real)
    requires AllInInt16(data) && gain >= 1.0
    ensures forall i :: 0 <= i < |data| ==>
      var r := AmplifyAudio(data, gain)[i];
      (0 <= data[i] ==> data[i] <= r) && (data[i] < 0 ==> r <= data[i])
  {
    forall i | 0 <= i < |data|
      ensures var r := AmplifyAudio(data, gain)[i]; (0 <= data[i] ==> data[i] <= r) && (data[i] < 0 ==> r <= data[i])
    {
      assert AmplifyAudio(data, gain)[i] == Amplify(data[i] as real, gain);
      AmplifySampleNeverQuieter(data[i], gain);
    }
  }

  /** `np.clip(data, -32000, 32000)`. */
  function ClipSample(x: int): int {
    if x < -32000 then -32000 else if x > 32000 then 32000 else x
  }

  predicate AllZero(s: seq<int>) {
    forall i :: 0 <= i < |s| ==> s[i] == 0
  }

  /** The sum of the squares of the clipped samples; zero exactly for an all-zero frame. */
  function SumSquares(s: seq<int>): (r: nat)
    ensures r == 0 <==> AllZero(s)
  {
    if |s| == 0 then 0
    else
      var c := ClipSample(s[0]);
      var rest := SumSquares(s[1..]);
      assert AllZero(s) <==> s[0] == 0 && AllZero(s[1..]) by {
        assert forall i :: 1 <= i < |s| ==> s[i] == s[1..][i - 1];
      }
      assert c * c == 0 <==> s[0] == 0;
      c * c + rest
  }

  /** `prepare_audio_data`, squared: no level for an empty frame or an all-zero frame, otherwise
      the (positive) mean square of the clipped samples. */
  function PrepareAudioData(data: seq<int>): (r: Option<real>)
    ensures r.None? <==> |data| == 0 || AllZero(data)
    ensures r.Some? ==> r.value > 0.0
  {
    if |data| == 0 then None
    else
      var sum := SumSquares(data);
      if sum == 0 then None else Some(sum as real / |data| as real)
  }

  // ---- _is_silence_detected --------------------------------------------------------------

  datatype SilenceState = SilenceState(detectedSpeech: bool, silentFrames: nat)

  /** The state both recording loops start from. */
  const Initial: SilenceState := SilenceState(false, 0)

  /** `rms > self.silence_threshold`. A frame without a level is not loud. */
  predicate Loud(level: Option<real>, threshold: real)
    ensures Loud(level, threshold) ==> level.Some? && level.value > 0.0
  {
    level.Some? && level.value > threshold * threshold
  }

  /** For a non-negative threshold, comparing the mean square with the squared threshold is the
      source's comparison of the root mean square with the threshold. */
  lemma LoudIffRmsAbove(level: Option<real>, threshold: real, rms: real)
    requires threshold >= 0.0 && rms >= 0.0 && level == Some(rms * rms)
    ensures Loud(level, threshold) <==> rms > threshold
  {
    var d := rms - threshold;
    assert rms * rms - threshold * threshold == d * (rms + threshold);
    if rms > threshold {
      assert d > 0.0 && rms + threshold > 0.0;
    } else {
      assert d <= 0.0 && rms + threshold >= 0.0;
      ProductNonPositive(d, rms + threshold);
    }
  }

  /** `_is_silence_detected`: a loud frame marks speech and resets the quiet count; any other
      frame extends the quiet count, and silence is reported once it exceeds `maxSilent`. A frame
      without a level (empty or all zeros) counts as quiet. */
  function SilenceStep(level: Option<real>, threshold: real, st: SilenceState, maxSilent: nat): (r: (bool, SilenceState))
    ensures Loud(level, threshold) ==> r == (false, SilenceState(true, 0))
    ensures !Loud(level, threshold) ==> r.1 == SilenceState(st.detectedSpeech, st.silentFrames + 1)
    ensures r.0 <==> !Loud(level, threshold) && st.silentFrames + 1 > maxSilent
  {
    if Loud(level, threshold) then (false, SilenceState(true, 0))
    else
      var n := st.silentFrames + 1;
      (n > maxSilent, SilenceState(st.detectedSpeech, n))
  }

  /** The comparison `None > float` raises `TypeError` in Python 3. */
  datatype SttError = NoneComparedWithThreshold

  /** `_is_silence_detected` as written: it compares the level with the threshold even when
      `prepare_audio_data` returned `None`, which raises. */
  function SilenceStepAsWritten(level: Option<real>, threshold: real, st: SilenceState, maxSilent: nat)
    : (r: Result<(bool, SilenceState), SttError>)
    ensures r.Err? <==> level.None?
    ensures level.Some? ==> r == Ok(SilenceStep(level, threshold, st, maxSilent))
  {
    if level.None? then Err(NoneComparedWithThreshold)
    else Ok(SilenceStep(level, threshold, st, maxSilent))
  }

  function Zeros(n: nat): (s: seq<int>)
    ensures |s| == n && AllZero(s)
  {
    seq(n, i => 0)
  }

  /** A frame of digital silence (a muted microphone) raises in the detector as written, whatever
      the gain, so the recording loop is abandoned; the detector as intended counts it as one
      more quiet frame. */
  lemma MutedFrameRaisesAsWritten(n: nat, gain: real, threshold: real, st: SilenceState, maxSilent: nat)
    ensures SilenceStepAsWritten(PrepareAudioData(AmplifyAudio(Zeros(n), gain)), threshold, st, maxSilent)
         == Err(NoneComparedWithThreshold)
    ensures SilenceStep(PrepareAudioData(AmplifyAudio(Zeros(n), gain)), threshold, st, maxSilent).1
         == SilenceState(st.detectedSpeech, st.silentFrames + 1)
  {
    var a := AmplifyAudio(Zeros(n), gain);
    forall i | 0 <= i < n ensures a[i] == 0 {
      assert a[i] == ToInt16(0.0 * gain);
    }
  }

  // ---- the detector over a run of frames ---------------------------------------------------

  /** The detector's state after the first `k` frames with these levels, starting from `Initial`. */
  function StateAt(levels: seq<Option<real>>, k: nat, threshold: real, maxSilent: nat): SilenceState
    requires k <= |levels|
    decreases k
  {
    if k == 0 then Initial
    else SilenceStep(levels[k - 1], threshold, StateAt(levels, k - 1, threshold, maxSilent), maxSilent).1
  }

  /** The detector reports silence on frame `k`. */
  predicate SilenceAt(levels: seq<Option<real>>, k: nat, threshold: real, maxSilent: nat)
    requires k < |levels|
  {
    SilenceStep(levels[k], threshold, StateAt(levels, k, threshold, maxSilent), maxSilent).0
  }

  /** The number of quiet frames at the end of the first `k`. */
  function QuietRun(levels: seq<Option<real>>, k: nat, threshold: real): (n: nat)
    requires k <= |levels|
    ensures n <= k
  {
    if k == 0 || Loud(levels[k - 1], threshold) then 0
    else QuietRun(levels, k - 1, threshold) + 1
  }

  predicate AnyLoud(levels: seq<Option<real>>, k: nat, threshold: real)
    requires k <= |levels|
  {
    exists j :: 0 <= j < k && Loud(levels[j], threshold)
  }

  /** The detector's state is the length of the trailing quiet run, and whether any frame so far
      was loud. */
  lemma {:induction false} StateAtCounts(levels: seq<Option<real>>, k: nat, threshold: real, maxSilent: nat)
    requires k <= |levels|
    ensures StateAt(levels, k, threshold, maxSilent).silentFrames == QuietRun(levels, k, threshold)
    ensures StateAt(levels, k, threshold, maxSilent).detectedSpeech <==> AnyLoud(levels, k, threshold)
    decreases k
  {
    if k > 0 {
      StateAtCounts(levels, k - 1, threshold, maxSilent);
      if AnyLoud(levels, k - 1, threshold) {
        var j :| 0 <= j < k - 1 && Loud(levels[j], threshold);
        assert 0 <= j < k;
      }
    }
  }

  /** The trailing quiet run is longer than `m` exactly when the last `m + 1` frames are quiet. */
  lemma {:induction false} QuietRunExceeds(levels: seq<Option<real>>, k: nat, threshold: real, m: nat)
    requires k <= |levels|
    ensures QuietRun(levels, k, threshold) > m <==>
      k > m && forall j :: k - 1 - m <= j < k ==> !Loud(levels[j], threshold)
    decreases k
  {
    if k > 0 && !Loud(levels[k - 1], threshold) && m > 0 {
      QuietRunExceeds(levels, k - 1, threshold, m - 1);
    }
  }

  /** Silence is reported on frame `k` exactly when frames `k - maxSilent` .. `k` are all quiet:
      on the (maxSilent + 1)-th consecutive quiet frame, whether or not speech came before. */
  lemma SilenceAtIffQuietRun(levels: seq<Option<real>>, k: nat, threshold: real, maxSilent: nat)
    requires k < |levels|
    ensures SilenceAt(levels, k, threshold, maxSilent) <==>
      k >= maxSilent && forall j :: k - maxSilent <= j <= k ==> !Loud(levels[j], threshold)
  {
    StateAtCounts(levels, k, threshold, maxSilent);
    QuietRunExceeds(levels, k + 1, threshold, maxSilent);
  }

  // ---- the recording loops ------------------------------------------------------------------

  /** The level the detector sees for one frame read from the microphone: its mean square after
      amplification. */
  function Level(frame: seq<int>, gain: real): Option<real> {
    PrepareAudioData(AmplifyAudio(frame, gain))
  }

  /** The level of each frame the microphone delivers. */
  function Levels(frames: seq<seq<int>>, gain: real): (r: seq<Option<real>>)
    ensures |r| == |frames|
    ensures forall i :: 0 <= i < |frames| ==> r[i] == Level(frames[i], gain)
  {
    seq(|frames|, i requires 0 <= i < |frames| => Level(frames[i], gain))
  }

  /** Whether the recogniser accepts the waveform at frame `k` (its decision is an input). */
  predicate Accepted(accepts: seq<bool>, k: nat) {
    k < |accepts| && accepts[k]
  }

  datatype VoskOutcome = Transcribed(frame: nat) | EndedBySilence(frame: nat) | NoTranscription

  /** The loop of `_transcribe_with_vosk` over the levels of the frames it reads: at most 50
      frames; each goes to the silence detector and then to the recogniser. Recording ends at the
      first silence, at the first accepted waveform, or after the last frame. */
  method VoskLoop(levels: seq<Option<real>>, threshold: real, accepts: seq<bool>)
    returns (outcome: VoskOutcome, read: nat)
    requires threshold >= 0.0
    ensures read <= MaxRecordFrames && read <= |levels|
    ensures forall j :: 0 <= j < read - 1 ==>
      !SilenceAt(levels, j, threshold, VoskMaxSilentFrames) && !Accepted(accepts, j)
    ensures outcome.Transcribed? ==>
      read > 0 && outcome.frame == read - 1 && Accepted(accepts, read - 1)
      && !SilenceAt(levels, read - 1, threshold, VoskMaxSilentFrames)
    ensures outcome.EndedBySilence? ==>
      read > 0 && outcome.frame == read - 1 && SilenceAt(levels, read - 1, threshold, VoskMaxSilentFrames)
    ensures outcome.NoTranscription? ==>
      read == Min(MaxRecordFrames, |levels|)
      && (read > 0 ==> !SilenceAt(levels, read - 1, threshold, VoskMaxSilentFrames) && !Accepted(accepts, read - 1))
  {
    var st := Initial;
    read := 0;
    while read < MaxRecordFrames && read < |levels|
      invariant read <= MaxRecordFrames && read <= |levels|
      invariant st == StateAt(levels, read, threshold, VoskMaxSilentFrames)
      invariant forall j :: 0 <= j < read ==> !SilenceAt(levels, j, threshold, VoskMaxSilentFrames) && !Accepted(accepts, j)
    {
      var step := SilenceStep(levels[read], threshold, st, VoskMaxSilentFrames);
      read := read + 1;
      if step.0 {
        return EndedBySilence(read - 1), read;
      }
      if Accepted(accepts, read - 1) {
        return Transcribed(read - 1), read;
      }
      st := step.1;
    }
    outcome := NoTranscription;
  }

  /** `_transcribe_with_vosk` on the frames the microphone delivers: each frame is amplified
      before its level is taken. */
  method TranscribeWithVosk(frames: seq<seq<int>>, gain: real, threshold: real, accepts: seq<bool>)
    returns (outcome: VoskOutcome, read: nat)
    requires threshold >= 0.0
    ensures read <= MaxRecordFrames && read <= |frames|
    ensures forall j :: 0 <= j < read - 1 ==>
      !SilenceAt(Levels(frames, gain), j, threshold, VoskMaxSilentFrames) && !Accepted(accepts, j)
    ensures outcome.Transcribed? ==>
      read > 0 && outcome.frame == read - 1 && Accepted(accepts, read - 1)
      && !SilenceAt(Levels(frames, gain), read - 1, threshold, VoskMaxSilentFrames)
    ensures outcome.EndedBySilence? ==>
      read > 0 && outcome.frame == read - 1 && SilenceAt(Levels(frames, gain), read - 1, threshold, VoskMaxSilentFrames)
    ensures outcome.NoTranscription? ==>
      read == Min(MaxRecordFrames, |frames|)
      && (read > 0 ==> !SilenceAt(Levels(frames, gain), read - 1, threshold, VoskMaxSilentFrames) && !Accepted(accepts, read - 1))
  {
    outcome, read := VoskLoop(Levels(frames, gain), threshold, accepts);
  }

  /** The server loop stops after `read` frames: the detector reports silence on none of the
      frames before the last one read, and when fewer than 50 frames were read although more were
      available, it reported silence on the last. */
  predicate ServerStopsAfter(levels: seq<Option<real>>, threshold: real, read: nat)
    requires read <= |levels|
  {
    && (forall j :: 0 <= j < read - 1 ==> !SilenceAt(levels, j, threshold, ServerMaxSilentFrames))
    && (read < Min(MaxRecordFrames, |levels|) ==> read > 0 && SilenceAt(levels, read - 1, threshold, ServerMaxSilentFrames))
  }

  /** The loop of `_transcribe_with_server` over the levels of the frames it reads: at most 50
      frames, and it stops on the first frame on which the detector reports silence. Returns the
      number of frames read. */
  method ServerLoop(levels: seq<Option<real>>, threshold: real) returns (read: nat)
    requires threshold >= 0.0
    ensures read <= MaxRecordFrames && read <= |levels|
    ensures ServerStopsAfter(levels, threshold, read)
  {
    var st := Initial;
    read := 0;
    while read < MaxRecordFrames && read < |levels|
      invariant read <= MaxRecordFrames && read <= |levels|
      invariant st == StateAt(levels, read, threshold, ServerMaxSilentFrames)
      invariant forall j :: 0 <= j < read ==> !SilenceAt(levels, j, threshold, ServerMaxSilentFrames)
    {
      var step := SilenceStep(levels[read], threshold, st, ServerMaxSilentFrames);
      read := read + 1;
      if step.0 {
        return read;
      }
      st := step.1;
    }
  }

  /** The recording of `_transcribe_with_server`: each amplified frame is written to the WAV
      buffer before the silence check, so the frame that ends the recording is part of it. Returns
      the frames written: the amplified prefix of `frames` up to the frame the loop stops on. */
  method RecordForServer(frames: seq<seq<int>>, gain: real, threshold: real) returns (recorded: seq<seq<int>>)
    requires threshold >= 0.0
    ensures |recorded| <= MaxRecordFrames && |recorded| <= |frames|
    ensures forall j :: 0 <= j < |recorded| ==> recorded[j] == AmplifyAudio(frames[j], gain)
    ensures ServerStopsAfter(Levels(frames, gain), threshold, |recorded|)
  {
    var levels := Levels(frames, gain);
    var read := ServerLoop(levels, threshold);
    recorded := AmplifyFirst(frames, read, gain);
    assert |recorded| == read;
  }

  /** The WAV parameters of the recording sent to the server: mono, 16-bit, 16 kHz. */
  const UploadFormat: WavFormat := WavFormat(1, 2, SampleRate)

  function Concat(frames: seq<seq<int>>): seq<int> {
    if |frames| == 0 then [] else frames[0] + Concat(frames[1..])
  }

  // ---- the transcription server's reply ----------------------------------------------------

  /** One entry of the server's `transcription` list; any key may be missing. */
  datatype Segment = Segment(text: Option<string>, start: Option<real>, end: Option<real>)

  /** The reply body: not JSON, or a JSON object with or without a `transcription` list. */
  datatype ServerBody = NotJson | Json(transcription: Option<seq<Segment>>)

  datatype Word = Word(conf: real, start: real, end: real, word: string)

  /** The Vosk-shaped result `_transcribe_with_server` returns. */
  datatype Transcript = Transcript(text: string, result: seq<Word>)

  /** The reshaping in `_transcribe_with_server`: a result only for status 200 with a non-empty
      transcription; its text is the first segment's text stripped, and it has one word per
      segment with confidence 1.0 and missing fields defaulted. */
  function FormatTranscription(reply: Reply<ServerBody>): (r: Option<Transcript>)
    ensures r.Some? <==>
      reply.Response? && reply.status == 200 && reply.body.Json? && |reply.body.transcription.GetOr([])| > 0
    ensures r.Some? ==>
      var segs := reply.body.transcription.value;
      && r.value.text == Strip(segs[0].text.GetOr(""))
      && |r.value.result| == |segs|
      && forall i :: 0 <= i < |segs| ==>
           r.value.result[i] == Word(1.0, segs[i].start.GetOr(0.0), segs[i].end.GetOr(0.0), segs[i].text.GetOr(""))
  {
    match reply
    case TransportError => None
    case Response(status, body) =>
      if status != 200 || body.NotJson? then None
      else
        var segs := body.transcription.GetOr([]);
        if |segs| == 0 then None
        else Some(Transcript(
          Strip(segs[0].text.GetOr("")),
          seq(|segs|, i requires 0 <= i < |segs| =>
            Word(1.0, segs[i].start.GetOr(0.0), segs[i].end.GetOr(0.0), segs[i].text.GetOr("")))))
  }

  /** `_transcribe_with_server`: record, upload the WAV, reshape the reply. */
  method TranscribeWithServer(frames: seq<seq<int>>, gain: real, threshold: real, reply: Reply<ServerBody>)
    returns (upload: WavBuffer, result: Option<Transcript>)
    requires threshold >= 0.0
    ensures upload.format == UploadFormat
    ensures exists n :: 0 <= n <= Min(MaxRecordFrames, |frames|) && upload.samples == Concat(AmplifyFirst(frames, n, gain))
    ensures result == FormatTranscription(reply)
  {
    var recorded := RecordForServer(frames, gain, threshold);
    assert recorded == AmplifyFirst(frames, |recorded|, gain);
    upload := WavBuffer(UploadFormat, Concat(recorded));
    result := FormatTranscription(reply);
  }

  /** The first `n` frames, each amplified. */
  function AmplifyFirst(frames: seq<seq<int>>, n: nat, gain: real): (r: seq<seq<int>>)
    requires n <= |frames|
    ensures |r| == n && forall j :: 0 <= j < n ==> r[j] == AmplifyAudio(frames[j], gain)
  {
    seq(n, j requires 0 <= j < n => AmplifyAudio(frames[j], gain))
  }

  // ---- loopcheck ---------------------------------------------------------------------------

  /** What `_transcribe_utterance` does once the transcription is back. */
  datatype AfterUtterance = RunPostCallback | BackToWakeWord | NoAction

  /** `_transcribe_utterance` after transcribing: with a callback set and a result, the counter
      goes up by one; the callback runs while the counter has not passed 10, after that the
      manager goes back to listening for the wake word. The counter is never reset. */
  function PostUtterance(loopcheck: nat, callbackSet: bool, transcribed: bool): (r: (nat, AfterUtterance))
    ensures callbackSet && transcribed ==> r.0 == loopcheck + 1 && r.1 != NoAction
    ensures !(callbackSet && transcribed) ==> r == (loopcheck, NoAction)
    ensures r.1 == RunPostCallback <==> callbackSet && transcribed && loopcheck < LoopcheckLimit
  {
    if callbackSet && transcribed then
      var n := loopcheck + 1;
      (n, if n > LoopcheckLimit then BackToWakeWord else RunPostCallback)
    else (loopcheck, NoAction)
  }

  /** How often the post-utterance callback runs over a series of utterances (`true` for one that
      produced a transcription). */
  function CallbackRuns(loopcheck: nat, callbackSet: bool, results: seq<bool>): nat
    decreases |results|
  {
    if |results| == 0 then 0
    else
      var step := PostUtterance(loopcheck, callbackSet, results[0]);
      (if step.1 == RunPostCallback then 1 else 0) + CallbackRuns(step.0, callbackSet, results[1..])
  }

  function CountTrue(s: seq<bool>): nat {
    if |s| == 0 then 0 else (if s[0] then 1 else 0) + CountTrue(s[1..])
  }

  /** Over the lifetime of a manager the post-utterance callback runs for the first ten
      transcribed utterances and never again. */
  lemma {:induction false} CallbackRunsAtMostTenTimes(loopcheck: nat, results: seq<bool>)
    requires loopcheck <= LoopcheckLimit
    ensures CallbackRuns(loopcheck, true, results) == Min(CountTrue(results), LoopcheckLimit - loopcheck)
    decreases |results|
  {
    if |results| > 0 {
      var step := PostUtterance(loopcheck, true, results[0]);
      if results[0] && loopcheck == LoopcheckLimit {
        CallbackRunsAfterLimit(step.0, results[1..]);
      } else {
        CallbackRunsAtMostTenTimes(step.0, results[1..]);
      }
    }
  }

  lemma {:induction false} CallbackRunsAfterLimit(loopcheck: nat, results: seq<bool>)
    requires loopcheck >= LoopcheckLimit
    ensures CallbackRuns(loopcheck, true, results) == 0
    decreases |results|
  {
    if |results| > 0 {
      CallbackRunsAfterLimit(PostUtterance(loopcheck, true, results[0]).0, results[1..]);
    }
  }
}

=== FILE: text.dfy ===
/**
 * The Python `str` operations the modelled code relies on: `isspace`, `strip`,
 * `lower`, `replace` and `join`. Strings are sequences of code points.
 */
module Text {

  /** Python's `str.isspace` for a single code point (also the set `\s` matches in a `str` regex). */
  predicate IsSpace(c: char) {
    || c == ' '
    || ('\t' <= c <= '\r')
    || ('\U{1C}' <= c <= '\U{1F}')
    || c == '\U{85}' || c == '\U{A0}' || c == '\U{1680}'
    || ('\U{2000}' <= c <= '\U{200A}')
    || c == '\U{2028}' || c == '\U{2029}' || c == '\U{202F}' || c == '\U{205F}' || c == '\U{3000}'
  }

  predicate AllSpace(s: string) {
    forall i :: 0 <= i < |s| ==> IsSpace(s[i])
  }

  /** The number of leading whitespace characters: `len(s) - len(s.lstrip())`. */
  function LeadingSpace(s: string): (k: nat)
    ensures k <= |s| && AllSpace(s[..k])
    ensures k < |s| ==> !IsSpace(s[k])
  {
    if |s| == 0 || !IsSpace(s[0]) then 0
    else
      var k := LeadingSpace(s[1..]);
      assert s[..k + 1] == [s[0]] + s[1..][..k];
      k + 1
  }

  /** Where the trailing whitespace begins: `len(s.rstrip())`. */
  function TrailingSpaceStart(s: string): (k: nat)
    ensures k <= |s| && AllSpace(s[k..])
    ensures 0 < k ==> !IsSpace(s[k - 1])
  {
    if |s| == 0 || !IsSpace(s[|s| - 1]) then |s|
    else
      var k := TrailingSpaceStart(s[..|s| - 1]);
      assert s[k..] == s[..|s| - 1][k..] + [s[|s| - 1]];
      k
  }

  /** `s.strip()`: the slice of `s` left once its leading and trailing whitespace are cut off;
      it neither starts nor ends with whitespace. */
  function Strip(s: string): (r: string)
    ensures |r| == 0 || (!IsSpace(r[0]) && !IsSpace(r[|r| - 1]))
    ensures exists a :: 0 <= a <= |s| - |r| && r == s[a..a + |r|] && AllSpace(s[..a]) && AllSpace(s[a + |r|..])
  {
    var a := LeadingSpace(s);
    var b := TrailingSpaceStart(s[a..]);
    assert s[a..][b..] == s[a + b..];
    s[a..a + b]
  }

  /** A string strips to nothing exactly when it is all whitespace. */
  lemma {:induction false} StripEmptyIffAllSpace(s: string)
    ensures Strip(s) == "" <==> AllSpace(s)
  {
    var a := LeadingSpace(s);
    var b := TrailingSpaceStart(s[a..]);
    if a == |s| {
      assert s[..a] == s;
    } else {
      assert s[a..][0] == s[a];
      assert b > 0;
    }
  }

  /** ASCII-only `str.lower`: maps `A`..`Z` to `a`..`z` and leaves every other code point. */
  function LowerChar(c: char): (d: char)
    ensures 'A' <= c <= 'Z' ==> 'a' <= d <= 'z'
    ensures !('A' <= c <= 'Z') ==> d == c
  {
    if 'A' <= c <= 'Z' then (c as int + 32) as char else c
  }

  function Lower(s: string): (r: string)
    ensures |r| == |s|
    ensures forall i :: 0 <= i < |s| ==> r[i] == LowerChar(s[i])
  {
    if |s| == 0 then [] else [LowerChar(s[0])] + Lower(s[1..])
  }

  predicate HasNoUpper(s: string) {
    forall i :: 0 <= i < |s| ==> !('A' <= s[i] <= 'Z')
  }

  /** `lower` leaves a string without upper-case letters as it is. */
  lemma LowerFixesLowerCase(s: string)
    requires HasNoUpper(s)
    ensures Lower(s) == s
  {
  }

  /** `strip` leaves a string that neither starts nor ends with whitespace as it is. */
  lemma StripFixesTrimmed(s: string)
    requires |s| == 0 || (!IsSpace(s[0]) && !IsSpace(s[|s| - 1]))
    ensures Strip(s) == s
  {
    assert LeadingSpace(s) == 0;
  }

  /** `pat` occurs in `s` starting at index `i`. */
  predicate OccursAt(s: string, pat: string, i: int) {
    0 <= i && i + |pat| <= |s| && s[i..i + |pat|] == pat
  }

  /** `pat in s` for a non-empty `pat`. */
  predicate Contains(s: string, pat: string) {
    exists i :: 0 <= i <= |s| - |pat| && OccursAt(s, pat, i)
  }

  /** `s.replace(pat, rep)`: scans left to right and replaces every non-overlapping occurrence. */
  function Replace(s: string, pat: string, rep: string): (r: string)
    requires |pat| > 0
    decreases |s|
  {
    if |s| < |pat| then s
    else if s[..|pat|] == pat then rep + Replace(s[|pat|..], pat, rep)
    else [s[0]] + Replace(s[1..], pat, rep)
  }

  /** A string without the placeholder comes back from `replace` unchanged. */
  lemma {:induction false} ReplaceAbsent(s: string, pat: string, rep: string)
    requires |pat| > 0 && !Contains(s, pat)
    ensures Replace(s, pat, rep) == s
    decreases |s|
  {
    if |s| < |pat| {
    } else {
      assert !OccursAt(s, pat, 0);
      forall i | OccursAt(s[1..], pat, i) ensures false {
        assert s[1..][i..i + |pat|] == s[i + 1..i + 1 + |pat|];
        assert OccursAt(s, pat, i + 1);
      }
      ReplaceAbsent(s[1..], pat, rep);
    }
  }

  /** A string lacking one of the placeholder's characters does not contain the placeholder. */
  lemma MissingCharNotContained(s: string, pat: string, c: char)
    requires c in pat && c !in s
    ensures !Contains(s, pat)
  {
    var j :| 0 <= j < |pat| && pat[j] == c;
    forall i | 0 <= i <= |s| - |pat| ensures !OccursAt(s, pat, i) {
      assert s[i..i + |pat|][j] == s[i + j] != c;
    }
  }

  /** Replacing a placeholder in the placeholder alone gives the replacement. */
  lemma ReplaceWhole(pat: string, rep: string)
    requires |pat| > 0
    ensures Replace(pat, pat, rep) == rep
  {
    assert pat[..|pat|] == pat;
    assert pat[|pat|..] == [];
    assert Replace([], pat, rep) == [];
  }

  /** While the output of `replace` shows only placeholder characters, it has copied the input. */
  lemma {:induction false} ReplacePrefixCopied(s: string, pat: string, rep: string, m: nat)
    requires |pat| > 0 && |rep| > 0 && rep[0] !in pat
    requires m <= |Replace(s, pat, rep)|
    requires forall j :: 0 <= j < m ==> Replace(s, pat, rep)[j] in pat
    ensures m <= |s| && Replace(s, pat, rep)[..m] == s[..m]
    decreases |s|
  {
    var r := Replace(s, pat, rep);
    if |s| < |pat| {
    } else if s[..|pat|] == pat {
      // the first output character is rep[0], not a placeholder character, so m == 0
      assert r[0] == rep[0];
    } else if m > 0 {
      var t := Replace(s[1..], pat, rep);
      assert r == [s[0]] + t;
      forall j | 0 <= j < m - 1 ensures t[j] in pat {
        assert t[j] == r[j + 1];
      }
      ReplacePrefixCopied(s[1..], pat, rep, m - 1);
      assert r[..m] == [s[0]] + t[..m - 1];
      assert s[..m] == [s[0]] + s[1..][..m - 1];
    }
  }

  /** After `replace`, no placeholder is left, provided the replacement is non-empty and shares no
      character with the placeholder (so it can neither contain one nor join two halves of one). */
  lemma {:induction false} ReplaceRemovesAll(s: string, pat: string, rep: string)
    requires |pat| > 0 && |rep| > 0
    requires forall k :: 0 <= k < |rep| ==> rep[k] !in pat
    ensures !Contains(Replace(s, pat, rep), pat)
    decreases |s|
  {
    var r := Replace(s, pat, rep);
    if |s| < |pat| {
      assert r == s;
    } else if s[..|pat|] == pat {
      var t := Replace(s[|pat|..], pat, rep);
      ReplaceRemovesAll(s[|pat|..], pat, rep);
      assert r == rep + t;
      forall i | 0 <= i <= |r| - |pat| ensures !OccursAt(r, pat, i) {
        if i < |rep| {
          assert r[i] == rep[i] && r[i..i + |pat|][0] == r[i];
        } else {
          assert r[i..i + |pat|] == t[i - |rep|..i - |rep| + |pat|];
          assert OccursAt(r, pat, i) ==> OccursAt(t, pat, i - |rep|);
        }
      }
    } else {
      var t := Replace(s[1..], pat, rep);
      ReplaceRemovesAll(s[1..], pat, rep);
      assert r == [s[0]] + t;
      forall i | 0 <= i <= |r| - |pat| ensures !OccursAt(r, pat, i) {
        if i == 0 {
          if r[..|pat|] == pat {
            forall j | 0 <= j < |pat| ensures r[j] in pat {
              assert r[j] == pat[j];
            }
            ReplacePrefixCopied(s, pat, rep, |pat|);
          }
        } else {
          assert r[i..i + |pat|] == t[i - 1..i - 1 + |pat|];
          assert OccursAt(r, pat, i) ==> OccursAt(t, pat, i - 1);
        }
      }
    }
  }

  /** `sep.join(parts)`. */
  function Join(sep: string, parts: seq<string>): string {
    if |parts| == 0 then ""
    else if |parts| == 1 then parts[0]
    else parts[0] + sep + Join(sep, parts[1..])
  }
}

=== FILE: tts_dispatch.dfy ===
/**
 * `generate_tts_audio` and the two HTTP backends whose control flow is in the TTS module:
 * the two-step AllTalk flow (`alltalk_tts`) and the streaming XTTS flow (`server_tts`).
 * Network replies are inputs; what the model produces is the requests issued and what is played.
 */
module TtsDispatch {
  import opened Common
  import opened Pcm
  import TtsRender

  /** The TTS settings `generate_tts_audio` is called with. */
  datatype TtsConfig = TtsConfig(
    option: string,
    azureKey: Option<string>,
    azureRegion: Option<string>,
    ttsUrl: Option<string>,
    charVoice: bool,
    voice: Option<string>)

  /** The one backend function `generate_tts_audio` calls. */
  datatype BackendCall =
    | AzureCall(text: string, key: string, region: string, voice: Option<string>)
    | LocalCall(text: string)
    | AllTalkCall(text: string, optUrl: Option<string>, voice: Option<string>)
    | PiperCall(text: string)
    | ServerCall(text: string, url: string, voice: Option<string>)

  /** The `ValueError`s raised inside `generate_tts_audio`; each is caught there and printed. */
  datatype DispatchError = MissingAzureCredentials | MissingServerUrl | InvalidOption

  /** The backends that are only used with the character voice switched on. */
  predicate CharVoiceOption(option: string) {
    option == "local" || option == "alltalk" || option == "piper" || option == "xttsv2"
  }

  /** `generate_tts_audio`: the backend to call, or the error it reports instead of calling one. */
  function Dispatch(text: string, cfg: TtsConfig): (r: Result<BackendCall, DispatchError>)
    // azure: both credentials must be truthy; the character-voice flag is not consulted
    ensures cfg.option == "azure" ==>
      (if Truthy(cfg.azureKey) && Truthy(cfg.azureRegion)
       then r == Ok(AzureCall(text, cfg.azureKey.value, cfg.azureRegion.value, cfg.voice))
       else r == Err(MissingAzureCredentials))
    // every other backend needs the character-voice flag, and xttsv2 a truthy URL
    ensures r.Ok? && r.value.LocalCall? <==> cfg.option == "local" && cfg.charVoice
    ensures r.Ok? && r.value.AllTalkCall? <==> cfg.option == "alltalk" && cfg.charVoice
    ensures r.Ok? && r.value.PiperCall? <==> cfg.option == "piper" && cfg.charVoice
    ensures r.Ok? && r.value.ServerCall? <==> cfg.option == "xttsv2" && cfg.charVoice && Truthy(cfg.ttsUrl)
    ensures r == Err(MissingServerUrl) <==> cfg.option == "xttsv2" && cfg.charVoice && !Truthy(cfg.ttsUrl)
    ensures r == Err(InvalidOption) <==> cfg.option != "azure" && !(cfg.charVoice && CharVoiceOption(cfg.option))
    // the backend receives the text unchanged
    ensures r.Ok? ==> r.value.text == text
  {
    if cfg.option == "azure" then
      if !Truthy(cfg.azureKey) || !Truthy(cfg.azureRegion) then Err(MissingAzureCredentials)
      else Ok(AzureCall(text, cfg.azureKey.value, cfg.azureRegion.value, cfg.voice))
    else if cfg.option == "local" && cfg.charVoice then Ok(LocalCall(text))
    else if cfg.option == "alltalk" && cfg.charVoice then Ok(AllTalkCall(text, cfg.ttsUrl, cfg.voice))
    else if cfg.option == "piper" && cfg.charVoice then Ok(PiperCall(text))
    else if cfg.option == "xttsv2" && cfg.charVoice then
      if !Truthy(cfg.ttsUrl) then Err(MissingServerUrl) else Ok(ServerCall(text, cfg.ttsUrl.value, cfg.voice))
    else Err(InvalidOption)
  }

  /** With the character voice switched off, only azure can still speak. */
  lemma CharVoiceOffSilencesAllButAzure(text: string, cfg: TtsConfig)
    requires !cfg.charVoice && cfg.option != "azure"
    ensures Dispatch(text, cfg) == Err(InvalidOption)
  {
  }

  // ---- HTTP ------------------------------------------------------------------------------

  /** The form fields of the AllTalk generation request that depend on the call. */
  datatype AllTalkForm = AllTalkForm(textInput: string, characterVoiceGen: string, language: string, outputFileName: string)

  datatype Request =
    | PostForm(url: string, form: AllTalkForm)
    | GetUrl(url: string)
    | GetStream(url: string, text: string, speakerWav: Option<string>, language: string, accept: string)

  /** The body of the generation reply: not a JSON object at all (`.json()` or `.get` raises),
      or an object with or without `output_file_url`. */
  datatype GenerateBody = NotJsonObject | JsonObject(outputFileUrl: Option<string>)

  /** How an AllTalk call ends. `Failed` is an exception caught and printed; `NoOutputUrl` is the
      "No WAV file URL provided." message. The played audio is whatever `sf.read` made of it. */
  datatype AllTalkOutcome<A> = Played(audio: A) | NoOutputUrl | Failed

  datatype AllTalkRun<A> = AllTalkRun(requests: seq<Request>, outcome: AllTalkOutcome<A>)

  function AllTalkRequest(text: string, ttsUrl: Option<string>, voice: Option<string>): Request {
    PostForm(FormatOption(ttsUrl) + "/api/tts-generate",
             AllTalkForm(text, FormatOption(voice) + ".wav", "en", "test_output"))
  }

  /** `alltalk_tts`: POST the text for generation, then GET the produced file and play it.
      `download` is the reply to the GET and `audio` what `sf.read` makes of its body (`None` when
      it cannot be read); neither is looked at unless the GET is issued. */
  function AllTalk<A>(text: string, ttsUrl: Option<string>, voice: Option<string>,
                      generate: Reply<GenerateBody>, download: Reply<Option<A>>): (r: AllTalkRun<A>)
    ensures |r.requests| >= 1 && r.requests[0] == AllTalkRequest(text, ttsUrl, voice)
    // the GET is issued exactly when generation succeeded and named a (truthy) output file
    ensures |r.requests| == 2 <==>
      generate.Response? && !RaisesForStatus(generate.status)
      && generate.body.JsonObject? && Truthy(generate.body.outputFileUrl)
    ensures |r.requests| == 2 ==> r.requests[1] == GetUrl(generate.body.outputFileUrl.value)
    ensures |r.requests| <= 2
    // something plays exactly when both steps succeeded and the file could be read, and it is that file
    ensures r.outcome.Played? <==>
      |r.requests| == 2 && download.Response? && !RaisesForStatus(download.status) && download.body.Some?
    ensures r.outcome.Played? ==> r.outcome.audio == download.body.value
    ensures r.outcome == NoOutputUrl <==>
      generate.Response? && !RaisesForStatus(generate.status)
      && generate.body.JsonObject? && !Truthy(generate.body.outputFileUrl)
  {
    var post := AllTalkRequest(text, ttsUrl, voice);
    match generate
    case TransportError => AllTalkRun([post], Failed)
    case Response(status, body) =>
      if RaisesForStatus(status) then AllTalkRun([post], Failed)
      else match body
        case NotJsonObject => AllTalkRun([post], Failed)
        case JsonObject(url) =>
          if !Truthy(url) then AllTalkRun([post], NoOutputUrl)
          else
            var get := GetUrl(url.value);
            match download
            case TransportError => AllTalkRun([post, get], Failed)
            case Response(status2, audio) =>
              if RaisesForStatus(status2) || audio.None? then AllTalkRun([post, get], Failed)
              else AllTalkRun([post, get], Played(audio.value))
  }

  /** The outcome of `server_tts`: the request it sent and what playback did with the stream. */
  datatype ServerRun = ServerRun(request: Request, events: seq<TtsRender.Event>)

  function StreamRequest(text: string, ttsUrl: string, voice: Option<string>): Request {
    GetStream(ttsUrl + "/tts_stream", text, voice, "en", "audio/x-wav")
  }

  /** `server_tts`: one streaming GET, then `play_audio_stream` with its defaults (gain 1.0, no
      normalisation) over the chunks of the body as they arrive. */
  function ServerTts(text: string, ttsUrl: string, voice: Option<string>, reply: Reply<seq<seq<Byte>>>): (r: ServerRun)
    ensures r.request == StreamRequest(text, ttsUrl, voice)
    ensures reply.TransportError? || RaisesForStatus(reply.status) ==> r.events == []
    ensures reply.Response? && !RaisesForStatus(reply.status) ==> |r.events| <= |reply.body|
  {
    var request := StreamRequest(text, ttsUrl, voice);
    match reply
    case TransportError => ServerRun(request, [])
    case Response(status, chunks) =>
      if RaisesForStatus(status) then ServerRun(request, [])
      else ServerRun(request, TtsRender.PlayStream(chunks, 1.0, false))
  }

  /** The decoded samples of every chunk, in order. */
  function DecodeAll(chunks: seq<seq<Byte>>): (r: seq<seq<int>>)
    requires TtsRender.AllEven(chunks)
    ensures |r| == |chunks|
    ensures forall k :: 0 <= k < |chunks| ==> AllInInt16(r[k]) && Encode(r[k]) == chunks[k]
  {
    if |chunks| == 0 then []
    else
      EncodeDecode(chunks[0]);
      var rest := chunks[1..];
      assert forall k :: 0 <= k < |rest| ==> rest[k] == chunks[k + 1];
      [Decode(chunks[0]).value] + DecodeAll(rest)
  }

  lemma {:induction false} RenderAllUnitGain(chunks: seq<seq<Byte>>)
    requires TtsRender.AllEven(chunks)
    ensures TtsRender.RenderAll(chunks, 1.0, false) == DecodeAll(chunks)
  {
    if |chunks| > 0 {
      var rest := chunks[1..];
      assert forall k :: 0 <= k < |rest| ==> rest[k] == chunks[k + 1];
      RenderAllUnitGain(rest);
      TtsRender.RenderUnitGainIsIdentity(Decode(chunks[0]).value);
    }
  }

  /** A successful XTTS stream whose chunks all have whole samples reaches the device byte for
      byte: the written samples re-encode to exactly the non-empty chunks, in order. */
  lemma ServerTtsPlaysStreamUnchanged(text: string, ttsUrl: string, voice: Option<string>, status: int, chunks: seq<seq<Byte>>)
    requires !RaisesForStatus(status) && TtsRender.AllEven(chunks)
    ensures TtsRender.AllEven(TtsRender.NonEmpty(chunks))
    ensures TtsRender.Written(ServerTts(text, ttsUrl, voice, Response(status, chunks)).events)
         == DecodeAll(TtsRender.NonEmpty(chunks))
  {
    TtsRender.PlayStreamSkipsEmptyKeepsOrder(chunks, 1.0, false);
    RenderAllUnitGain(TtsRender.NonEmpty(chunks));
  }
}

=== FILE: tts_render.dfy ===
/**
 * `play_audio_stream`: every non-empty chunk of the stream is decoded as int16 samples,
 * optionally peak-normalised, multiplied by the gain, saturated to the int16 range and
 * written to the output device in stream order; an empty chunk is logged and skipped, and the
 * first chunk that fails to decode ends the whole playback.
 */
module TtsRender {
  import opened Common
  import opened Pcm

  /** What happens to the output device and the log, one entry per chunk handled. */
  datatype Event =
    | Wrote(samples: seq<int>)     // `stream.write(audio_data)`
    | EmptyChunkLogged             // "Received empty chunk."
    | PlaybackFailed(err: DecodeError)  // the outer handler: "Error during audio playback"

  /** The largest absolute sample value of a chunk (0 for no samples). */
  function Peak(s: seq<int>): (p: nat)
    ensures forall i :: 0 <= i < |s| ==> Abs(s[i]) <= p
    ensures |s| > 0 ==> exists i :: 0 <= i < |s| && Abs(s[i]) == p
    ensures |s| == 0 ==> p == 0
  {
    if |s| == 0 then 0
    else
      var q := Peak(s[1..]);
      assert forall i :: 1 <= i < |s| ==> s[i] == s[1..][i - 1];
      if Abs(s[0]) >= q then Abs(s[0]) else q
  }

  /** Peak normalisation: every sample scaled by `32767 / peak`, so the loudest sample reaches
      exactly 32767 in magnitude; a chunk whose peak is 0 (all zeros) is left as it is. */
  function Normalise(s: seq<int>): (r: seq<real>)
    requires AllInInt16(s)
    ensures |r| == |s|
    ensures Peak(s) == 0 ==> r == AsReals(s)
    ensures Peak(s) > 0 ==> forall i :: 0 <= i < |s| ==> -32767.0 <= r[i] <= 32767.0
    ensures Peak(s) > 0 ==> exists i :: 0 <= i < |s| && (r[i] == 32767.0 || r[i] == -32767.0)
  {
    var p := Peak(s);
    if p == 0 then AsReals(s)
    else
      var r := ScaleToPeak(s, p);
      forall i | 0 <= i < |s| ensures -32767.0 <= r[i] <= 32767.0 {
        ScaledWithinPeak(s[i], p);
      }
      var k :| 0 <= k < |s| && Abs(s[k]) == p;
      assert r[k] == 32767.0 || r[k] == -32767.0 by { ScaledAtPeak(s[k], p); }
      r
  }

  /** `audio_data / max_value * 32767`. */
  function ScaleToPeak(s: seq<int>, p: int): (r: seq<real>)
    requires p > 0
    ensures |r| == |s| && forall i :: 0 <= i < |s| ==> r[i] == s[i] as real / p as real * 32767.0
  {
    seq(|s|, i requires 0 <= i < |s| => s[i] as real / p as real * 32767.0)
  }

  lemma ScaledWithinPeak(x: int, p: nat)
    requires 0 < p && Abs(x) <= p
    ensures -32767.0 <= x as real / p as real * 32767.0 <= 32767.0
  {
    var q := x as real / p as real;
    assert -1.0 <= q <= 1.0 by {
      assert q * p as real == x as real;
    }
  }

  lemma ScaledAtPeak(x: int, p: nat)
    requires 0 < p && Abs(x) == p
    ensures x as real / p as real * 32767.0 == (if x < 0 then -32767.0 else 32767.0)
  {
  }

  /** One decoded chunk as written to the device. */
  function Render(s: seq<int>, gain: real, normalize: bool): (r: seq<int>)
    requires AllInInt16(s)
    ensures |r| == |s| && AllInInt16(r)
    // without normalisation each sample is the input times the gain, clipped and truncated
    ensures !normalize ==> forall i :: 0 <= i < |s| ==> r[i] == ToInt16(s[i] as real * gain)
  {
    AmplifyAll(if normalize then Normalise(s) else AsReals(s), gain)
  }

  /** Gain scales each sample, and a product outside the int16 range is clamped to its nearest
      bound rather than wrapped around. */
  lemma GainClampsInsteadOfWrapping()
    ensures Render([1000, -1000], 2.0, false) == [2000, -2000]
    ensures Render([1000, -1000], 50.0, false) == [32767, -32768]
  {
    ToInt16OfInteger(2000);
    ToInt16OfInteger(-2000);
    assert AsReals([1000, -1000]) == [1000.0, -1000.0];
  }

  /** A chunk that cannot be decoded: non-empty with an odd number of bytes. */
  predicate Undecodable(c: seq<Byte>) {
    |c| > 0 && |c| % 2 == 1
  }

  /** What one chunk contributes to the playback when nothing before it has failed: an empty
      chunk is logged, one that decodes is rendered and written, any other raises. */
  function ChunkEvent(c: seq<Byte>, gain: real, normalize: bool): (r: Event)
    ensures r.EmptyChunkLogged? <==> |c| == 0
    ensures r.PlaybackFailed? <==> Undecodable(c)
    ensures r.Wrote? ==> AllInInt16(r.samples) && |r.samples| == |c| / 2
  {
    if |c| == 0 then EmptyChunkLogged
    else match Decode(c)
      case Err(e) => PlaybackFailed(e)
      case Ok(s) => Wrote(Render(s, gain, normalize))
  }

  /** `play_audio_stream` over the whole chunk sequence: the chunks in order until one raises,
      which ends the playback. */
  function PlayStream(chunks: seq<seq<Byte>>, gain: real, normalize: bool): (r: seq<Event>)
    ensures |r| <= |chunks|
    ensures forall k :: 0 <= k < |r| && r[k].Wrote? ==> AllInInt16(r[k].samples)
    ensures forall k :: 0 <= k < |r| && r[k].PlaybackFailed? ==> k == |r| - 1
  {
    if |chunks| == 0 then []
    else
      var e := ChunkEvent(chunks[0], gain, normalize);
      if e.PlaybackFailed? then [e] else [e] + PlayStream(chunks[1..], gain, normalize)
  }

  function MapEvents(chunks: seq<seq<Byte>>, gain: real, normalize: bool): seq<Event> {
    if |chunks| == 0 then [] else [ChunkEvent(chunks[0], gain, normalize)] + MapEvents(chunks[1..], gain, normalize)
  }

  /** A stream in which every chunk decodes is handled chunk by chunk, in stream order. */
  lemma {:induction false} PlayStreamIsChunkwise(chunks: seq<seq<Byte>>, gain: real, normalize: bool)
    requires forall j :: 0 <= j < |chunks| ==> !Undecodable(chunks[j])
    ensures PlayStream(chunks, gain, normalize) == MapEvents(chunks, gain, normalize)
  {
    if |chunks| > 0 {
      var rest := chunks[1..];
      assert forall j :: 0 <= j < |rest| ==> rest[j] == chunks[j + 1];
      PlayStreamIsChunkwise(rest, gain, normalize);
    }
  }

  /** The first undecodable chunk ends playback: the chunks before it are handled chunk by chunk,
      it yields the failure, and nothing after it is written or logged. */
  lemma {:induction false} PlayStreamStopsAtUndecodable(chunks: seq<seq<Byte>>, gain: real, normalize: bool, k: nat)
    requires k < |chunks| && Undecodable(chunks[k])
    requires forall j :: 0 <= j < k ==> !Undecodable(chunks[j])
    ensures PlayStream(chunks, gain, normalize)
         == MapEvents(chunks[..k], gain, normalize) + [PlaybackFailed(OddLength(|chunks[k]|))]
  {
    if k > 0 {
      var rest := chunks[1..];
      assert forall j :: 0 <= j < |rest| ==> rest[j] == chunks[j + 1];
      PlayStreamStopsAtUndecodable(rest, gain, normalize, k - 1);
      assert chunks[..k][1..] == rest[..k - 1];
    }
  }

  /** The non-empty chunks of a stream, in order. */
  function NonEmpty(chunks: seq<seq<Byte>>): (r: seq<seq<Byte>>)
    ensures |r| <= |chunks|
    ensures forall k :: 0 <= k < |r| ==> |r[k]| > 0
  {
    if |chunks| == 0 then []
    else if |chunks[0]| == 0 then NonEmpty(chunks[1..])
    else [chunks[0]] + NonEmpty(chunks[1..])
  }

  function CountEmpty(chunks: seq<seq<Byte>>): nat {
    if |chunks| == 0 then 0
    else (if |chunks[0]| == 0 then 1 else 0) + CountEmpty(chunks[1..])
  }

  /** The samples written to the device, chunk by chunk. */
  function Written(events: seq<Event>): seq<seq<int>> {
    if |events| == 0 then []
    else if events[0].Wrote? then [events[0].samples] + Written(events[1..])
    else Written(events[1..])
  }

  function CountSkipped(events: seq<Event>): nat {
    if |events| == 0 then 0
    else (if events[0].EmptyChunkLogged? then 1 else 0) + CountSkipped(events[1..])
  }

  predicate AllEven(chunks: seq<seq<Byte>>) {
    forall k :: 0 <= k < |chunks| ==> |chunks[k]| % 2 == 0
  }

  /** The chunks written, in stream order, once each decoded: the reference the device output is
      compared with. */
  function RenderAll(chunks: seq<seq<Byte>>, gain: real, normalize: bool): seq<seq<int>>
    requires AllEven(chunks)
  {
    if |chunks| == 0 then []
    else [Render(Decode(chunks[0]).value, gain, normalize)] + RenderAll(chunks[1..], gain, normalize)
  }

  /** For a stream whose chunks all decode, every empty chunk is logged and skipped, every other
      chunk is written exactly once, in stream order, and nothing fails. */
  lemma {:induction false} PlayStreamSkipsEmptyKeepsOrder(chunks: seq<seq<Byte>>, gain: real, normalize: bool)
    requires AllEven(chunks)
    ensures AllEven(NonEmpty(chunks))
    ensures Written(PlayStream(chunks, gain, normalize)) == RenderAll(NonEmpty(chunks), gain, normalize)
    ensures CountSkipped(PlayStream(chunks, gain, normalize)) == CountEmpty(chunks)
    ensures |PlayStream(chunks, gain, normalize)| == |chunks|
    ensures forall k :: 0 <= k < |chunks| ==> !PlayStream(chunks, gain, normalize)[k].PlaybackFailed?
  {
    if |chunks| > 0 {
      var rest := chunks[1..];
      assert AllEven(rest) by {
        forall k | 0 <= k < |rest| ensures |rest[k]| % 2 == 0 { assert rest[k] == chunks[k + 1]; }
      }
      PlayStreamSkipsEmptyKeepsOrder(rest, gain, normalize);
      var r := PlayStream(chunks, gain, normalize);
      assert r[1..] == PlayStream(rest, gain, normalize);
      if |chunks[0]| > 0 {
        assert NonEmpty(chunks) == [chunks[0]] + NonEmpty(rest);
        assert NonEmpty(chunks)[1..] == NonEmpty(rest);
      }
    }
  }

  /** With gain 1.0 and no normalisation the device receives the decoded samples unchanged. */
  lemma RenderUnitGainIsIdentity(s: seq<int>)
    requires AllInInt16(s)
    ensures Render(s, 1.0, false) == s
  {
    var r := Render(s, 1.0, false);
    forall i | 0 <= i < |s| ensures r[i] == s[i] {
      assert r[i] == Amplify(s[i] as real, 1.0);
      ToInt16OfInteger(s[i]);
    }
  }

  /** With normalisation on and gain 1.0, a chunk that is not silent comes out with its loudest
      sample at full scale, 32767 in magnitude, and every sample within that. */
  lemma {:induction false} NormalisedPeakIsFullScale(s: seq<int>)
    requires AllInInt16(s) && Peak(s) > 0
    ensures Peak(Render(s, 1.0, true)) == 32767
  {
    var y := Normalise(s);
    var r := Render(s, 1.0, true);
    assert r == AmplifyAll(y, 1.0);
    forall i | 0 <= i < |s| ensures Abs(r[i]) <= 32767 {
      assert r[i] == Amplify(y[i], 1.0) == ToInt16(y[i]);
    }
    var k :| 0 <= k < |s| && (y[k] == 32767.0 || y[k] == -32767.0);
    assert Abs(r[k]) == 32767 by {
      assert r[k] == ToInt16(y[k]);
      ToInt16OfInteger(32767);
      ToInt16OfInteger(-32767);
    }
    PeakBounds(r, k);
  }

  /** A sample at full scale, with none louder, makes the peak full scale. */
  lemma PeakBounds(r: seq<int>, k: int)
    requires 0 <= k < |r| && Abs(r[k]) == 32767
    requires forall i :: 0 <= i < |r| ==> Abs(r[i]) <= 32767
    ensures Peak(r) == 32767
  {
    var j :| 0 <= j < |r| && Abs(r[j]) == Peak(r);
  }

  // ---- As written: NumPy's int16 `abs` -------------------------------------------------

  /** `np.abs` on an int16 value: `abs(-32768)` does not fit and wraps back to -32768. */
  function NumpyAbs16(x: int): (r: int)
    ensures r == x || r == -x
    ensures r < 0 <==> x == Int16Min
    ensures Int16Min <= x <= Int16Max ==> Int16Min <= r <= Int16Max
  {
    if x == Int16Min then Int16Min else Abs(x)
  }

  /** `np.max(np.abs(audio_data))` exactly as the source computes it. */
  function PeakAsWritten(s: seq<int>): (p: int)
    requires |s| > 0
    ensures forall i :: 0 <= i < |s| ==> NumpyAbs16(s[i]) <= p
    ensures exists i :: 0 <= i < |s| && NumpyAbs16(s[i]) == p
  {
    if |s| == 1 then NumpyAbs16(s[0])
    else
      var q := PeakAsWritten(s[1..]);
      assert forall i :: 1 <= i < |s| ==> s[i] == s[1..][i - 1];
      if NumpyAbs16(s[0]) >= q then NumpyAbs16(s[0])
      else
        var j :| 0 <= j < |s| - 1 && NumpyAbs16(s[1..][j]) == q;
        assert NumpyAbs16(s[j + 1]) == q;
        q
  }

  /** The chunk transform of the source line for line, including the wrapped peak. */
  function RenderAsWritten(s: seq<int>, gain: real, normalize: bool): (r: seq<int>)
    requires |s| > 0 && AllInInt16(s)
    ensures |r| == |s| && AllInInt16(r)
  {
    var p := PeakAsWritten(s);
    AmplifyAll(if normalize && p > 0 then ScaleToPeak(s, p) else AsReals(s), gain)
  }

  /** The chunk [-32768, 1]: the source's peak ignores the -32768 sample, takes 1 as the peak and
      blows the quiet sample up to full scale; with the true peak (32768) both samples keep their
      proportions. */
  lemma PeakWrapCounterexample()
    ensures PeakAsWritten([-32768, 1]) == 1
    ensures RenderAsWritten([-32768, 1], 1.0, true) == [-32768, 32767]
    ensures Render([-32768, 1], 1.0, true) == [-32767, 0]
  {
    var s := [-32768, 1];
    assert PeakAsWritten(s[1..]) == 1;
    var r := RenderAsWritten(s, 1.0, true);
    var y := ScaleToPeak(s, 1);
    assert r == AmplifyAll(y, 1.0);
    assert r[0] == -32768 by {
      assert y[0] == -32768.0 * 32767.0;
      assert r[0] == ToInt16(y[0] * 1.0);
    }
    assert r[1] == 32767 by {
      assert y[1] == 32767.0;
      assert r[1] == ToInt16(y[1] * 1.0);
      ToInt16OfInteger(32767);
    }
    assert Peak(s[1..]) == 1;
    assert Peak(s) == 32768;
    var c := Render(s, 1.0, true);
    var z := ScaleToPeak(s, 32768);
    assert Normalise(s) == z;
    assert c == AmplifyAll(z, 1.0);
    assert c[0] == -32767 by {
      assert z[0] == -32767.0;
      assert c[0] == ToInt16(z[0] * 1.0);
      ToInt16OfInteger(-32767);
    }
    assert c[1] == 0 by {
      assert z[1] == 32767.0 / 32768.0;
      assert c[1] == ToInt16(z[1] * 1.0);
    }
  }
}

=== FILE: voice_control.dfy ===
/**
 * Voice commands for the servos: the fixed table of commands with their aliases and replies, and
 * the matching of a spoken command against it. What a servo routine does is an input: it either
 * completes or raises with a message.
 */
module VoiceControl {
  import opened Common
  import Text

  /** The servo routine an entry runs. */
  datatype Movement =
    | StepForward | TurnRight | TurnLeft | Stand | Sit
    | PortMainPlus | PortMainMinus | PortForarmPlus | PortForarmMinus | PortHandPlus | PortHandMinus
    | StarMainPlus | StarMainMinus | StarForarmPlus | StarForarmMinus | StarHandPlus | StarHandMinus

  /** One entry of `MOVEMENT_COMMANDS`: its key, routine, reply and aliases. */
  datatype Entry = Entry(key: string, action: Movement, response: string, aliases: seq<string>)

  /** The entry's key followed by its aliases: every phrase that selects it. */
  function Phrases(e: Entry): seq<string> {
    [e.key] + e.aliases
  }

  predicate Matches(e: Entry, command: string) {
    command == e.key || command in e.aliases
  }

  const MoveForwardEntry := Entry("move forward", StepForward, "Moving forward.", ["walk forward", "step forward", "go forward"])
  const TurnRightEntry := Entry("turn right", TurnRight, "Turning right.", ["rotate right", "go right"])
  const TurnLeftEntry := Entry("turn left", TurnLeft, "Turning left.", ["rotate left", "go left"])
  const StandUpEntry := Entry("stand up", Stand, "Standing up.", ["get up", "rise"])
  const SitDownEntry := Entry("sit down", Sit, "Sitting down.", ["lower", "crouch"])
  const PortArmUpEntry := Entry("port arm up", PortMainPlus, "Raising port arm.", ["raise left arm", "left arm up"])
  const PortArmDownEntry := Entry("port arm down", PortMainMinus, "Lowering port arm.", ["lower left arm", "left arm down"])
  const PortForearmUpEntry := Entry("port forearm up", PortForarmPlus, "Raising port forearm.", ["bend left arm up"])
  const PortForearmDownEntry := Entry("port forearm down", PortForarmMinus, "Lowering port forearm.", ["bend left arm down"])
  const PortHandUpEntry := Entry("port hand up", PortHandPlus, "Raising port hand.", ["left hand up"])
  const PortHandDownEntry := Entry("port hand down", PortHandMinus, "Lowering port hand.", ["left hand down"])
  const StarboardArmUpEntry := Entry("starboard arm up", StarMainPlus, "Raising starboard arm.", ["raise right arm", "right arm up"])
  const StarboardArmDownEntry := Entry("starboard arm down", StarMainMinus, "Lowering starboard arm.", ["lower right arm", "right arm down"])
  const StarboardForearmUpEntry := Entry("starboard forearm up", StarForarmPlus, "Raising starboard forearm.", ["bend right arm up"])
  const StarboardForearmDownEntry := Entry("starboard forearm down", StarForarmMinus, "Lowering starboard forearm.", ["bend right arm down"])
  const StarboardHandUpEntry := Entry("starboard hand up", StarHandPlus, "Raising starboard hand.", ["right hand up"])
  const StarboardHandDownEntry := Entry("starboard hand down", StarHandMinus, "Lowering starboard hand.", ["right hand down"])

  /** `MOVEMENT_COMMANDS`, in the order of the source's dictionary: basic movement, poses, then
      the port and starboard arm controls. */
  const Commands: seq<Entry> := [
    MoveForwardEntry, TurnRightEntry, TurnLeftEntry, StandUpEntry,
    SitDownEntry, PortArmUpEntry, PortArmDownEntry, PortForearmUpEntry,
    PortForearmDownEntry, PortHandUpEntry, PortHandDownEntry, StarboardArmUpEntry,
    StarboardArmDownEntry, StarboardForearmUpEntry, StarboardForearmDownEntry, StarboardHandUpEntry,
    StarboardHandDownEntry]

  // ---- the table's phrases are distinct and already normalised ------------------------------

  /** No phrase of `e` selects `f`. */
  predicate Apart(e: Entry, f: Entry) {
    !Matches(f, e.key) && forall a :: a in e.aliases ==> !Matches(f, a)
  }

  // Entries share no phrase with any entry after them; the table is checked a few rows at a time.
  lemma MoveForwardApart() ensures forall i, j | 0 <= i < 1 && i < j < |Commands| :: Apart(Commands[i], Commands[j]) {}
  lemma TurnRightApart() ensures forall i, j | 1 <= i < 2 && i < j < |Commands| :: Apart(Commands[i], Commands[j]) {}
  lemma TurnLeftApart() ensures forall i, j | 2 <= i < 3 && i < j < |Commands| :: Apart(Commands[i], Commands[j]) {}
  lemma PosesApart() ensures forall i, j | 3 <= i < 5 && i < j < |Commands| :: Apart(Commands[i], Commands[j]) {}
  lemma PortArmApart() ensures forall i, j | 5 <= i < 8 && i < j < |Commands| :: Apart(Commands[i], Commands[j]) {}
  lemma LaterRowsApart() ensures forall i, j | 8 <= i < 17 && i < j < |Commands| :: Apart(Commands[i], Commands[j]) {}

  /** Keys and aliases are pairwise distinct across entries, so no command matches two entries. */
  lemma {:induction false} AtMostOneEntryMatches(command: string, i: nat, j: nat)
    requires i < j < |Commands|
    ensures !(Matches(Commands[i], command) && Matches(Commands[j], command))
  {
    MoveForwardApart(); TurnRightApart(); TurnLeftApart(); PosesApart(); PortArmApart(); LaterRowsApart();
    assert Apart(Commands[i], Commands[j]);
  }

  /** What `command.lower().strip()` makes of the spoken text. */
  function Normalise(command: string): string {
    Text.Strip(Text.Lower(command))
  }

  /** A non-empty phrase with no upper-case letter and no whitespace at either end. */
  predicate LowerWords(p: string) {
    |p| > 0 && !Text.IsSpace(p[0]) && !Text.IsSpace(p[|p| - 1]) && Text.HasNoUpper(p)
  }

  // Every phrase of every entry is written in lower case; again a few rows at a time.
  lemma MoveForwardLower() ensures LowerWords(MoveForwardEntry.key) && forall a :: a in MoveForwardEntry.aliases ==> LowerWords(a) {}
  lemma TurnRightLower() ensures LowerWords(TurnRightEntry.key) && forall a :: a in TurnRightEntry.aliases ==> LowerWords(a) {}
  lemma TurnLeftLower() ensures LowerWords(TurnLeftEntry.key) && forall a :: a in TurnLeftEntry.aliases ==> LowerWords(a) {}
  lemma StandUpLower() ensures LowerWords(StandUpEntry.key) && forall a :: a in StandUpEntry.aliases ==> LowerWords(a) {}
  lemma SitDownLower() ensures LowerWords(SitDownEntry.key) && forall a :: a in SitDownEntry.aliases ==> LowerWords(a) {}
  lemma PortArmUpLower() ensures LowerWords(PortArmUpEntry.key) && forall a :: a in PortArmUpEntry.aliases ==> LowerWords(a) {}
  lemma PortArmDownLower() ensures LowerWords(PortArmDownEntry.key) && forall a :: a in PortArmDownEntry.aliases ==> LowerWords(a) {}
  lemma PortForearmUpLower() ensures LowerWords(PortForearmUpEntry.key) && forall a :: a in PortForearmUpEntry.aliases ==> LowerWords(a) {}
  lemma PortForearmDownLower() ensures LowerWords(PortForearmDownEntry.key) && forall a :: a in PortForearmDownEntry.aliases ==> LowerWords(a) {}
  lemma PortHandUpLower() ensures LowerWords(PortHandUpEntry.key) && forall a :: a in PortHandUpEntry.aliases ==> LowerWords(a) {}
  lemma PortHandDownLower() ensures LowerWords(PortHandDownEntry.key) && forall a :: a in PortHandDownEntry.aliases ==> LowerWords(a) {}
  lemma StarboardArmUpLower() ensures LowerWords(StarboardArmUpEntry.key) && forall a :: a in StarboardArmUpEntry.aliases ==> LowerWords(a) {}
  lemma StarboardArmDownLower() ensures LowerWords(StarboardArmDownEntry.key) && forall a :: a in StarboardArmDownEntry.aliases ==> LowerWords(a) {}
  lemma StarboardForearmUpLower() ensures LowerWords(StarboardForearmUpEntry.key) && forall a :: a in StarboardForearmUpEntry.aliases ==> LowerWords(a) {}
  lemma StarboardForearmDownLower() ensures LowerWords(StarboardForearmDownEntry.key) && forall a :: a in StarboardForearmDownEntry.aliases ==> LowerWords(a) {}
  lemma StarboardHandUpLower() ensures LowerWords(StarboardHandUpEntry.key) && forall a :: a in StarboardHandUpEntry.aliases ==> LowerWords(a) {}
  lemma StarboardHandDownLower() ensures LowerWords(StarboardHandDownEntry.key) && forall a :: a in StarboardHandDownEntry.aliases ==> LowerWords(a) {}

  /** Every key and alias survives normalisation unchanged, so each one can be spoken. */
  lemma {:induction false} PhrasesAreNormalised(i: nat, p: string)
    requires i < |Commands| && p in Phrases(Commands[i])
    ensures Normalise(p) == p
  {
    MoveForwardLower(); TurnRightLower(); TurnLeftLower(); StandUpLower(); SitDownLower(); PortArmUpLower(); PortArmDownLower(); PortForearmUpLower(); PortForearmDownLower(); PortHandUpLower(); PortHandDownLower(); StarboardArmUpLower(); StarboardArmDownLower(); StarboardForearmUpLower(); StarboardForearmDownLower(); StarboardHandUpLower(); StarboardHandDownLower();
    assert LowerWords(p);
    Text.LowerFixesLowerCase(p);
    Text.StripFixesTrimmed(p);
  }

  // ---- process_movement_command -------------------------------------------------------------

  /** The index of the first entry, from `k` on, that the command matches. */
  function FirstMatch(command: string, k: nat): (r: Option<nat>)
    requires k <= |Commands|
    ensures r.Some? ==> k <= r.value < |Commands| && Matches(Commands[r.value], command)
    ensures r.None? <==> forall i :: k <= i < |Commands| ==> !Matches(Commands[i], command)
    decreases |Commands| - k
  {
    if k == |Commands| then None
    else if Matches(Commands[k], command) then Some(k)
    else FirstMatch(command, k + 1)
  }

  /** The result tuple `(success, message)`. */
  datatype Reply = Reply(success: bool, message: string)

  /** The routine run (at most one) and the reply. */
  datatype CommandRun = CommandRun(invoked: Option<Movement>, reply: Reply)

  /** Running an entry's routine: its reply when the routine completes, otherwise the error text
      built from the exception's message. `perform(m)` is `None` when `m` completes. */
  function Run(e: Entry, perform: Movement -> Option<string>): (r: CommandRun)
    ensures r.invoked == Some(e.action)
    ensures r.reply.success <==> perform(e.action).None?
    ensures r.reply.success ==> r.reply.message == e.response
    ensures !r.reply.success ==> r.reply.message == "Error executing movement: " + perform(e.action).value
  {
    match perform(e.action)
    case None => CommandRun(Some(e.action), Reply(true, e.response))
    case Some(msg) => CommandRun(Some(e.action), Reply(false, "Error executing movement: " + msg))
  }

  const NotRecognized: CommandRun := CommandRun(None, Reply(false, "Command not recognized."))

  /** `process_movement_command`: the entry whose key or alias equals the normalised command runs,
      once; no routine runs when nothing matches. */
  function ProcessMovementCommand(command: string, perform: Movement -> Option<string>): (r: CommandRun)
    ensures r == NotRecognized <==> forall i :: 0 <= i < |Commands| ==> !Matches(Commands[i], Normalise(command))
    ensures forall i :: 0 <= i < |Commands| && Matches(Commands[i], Normalise(command)) ==> r == Run(Commands[i], perform)
    ensures r.reply.success <==> r.invoked.Some? && perform(r.invoked.value).None?
  {
    var c := Normalise(command);
    match FirstMatch(c, 0)
    case None => NotRecognized
    case Some(k) =>
      assert forall i :: 0 <= i < |Commands| && Matches(Commands[i], c) ==> i == k by {
        forall i | 0 <= i < |Commands| && Matches(Commands[i], c) ensures i == k {
          if i < k { AtMostOneEntryMatches(c, i, k); }
          if k < i { AtMostOneEntryMatches(c, k, i); }
        }
      }
      Run(Commands[k], perform)
  }

  /** Saying any key or alias exactly runs that entry's routine. */
  lemma EveryPhraseSelectsItsEntry(i: nat, p: string, perform: Movement -> Option<string>)
    requires i < |Commands| && p in Phrases(Commands[i])
    ensures ProcessMovementCommand(p, perform) == Run(Commands[i], perform)
  {
    PhrasesAreNormalised(i, p);
  }
}
